=== FILE: README.md ===
# Sakina decision rules in Dafny

This project models the pure decision rules of a React mental-health app.
The app keeps a CBT mood journal, a library of guided audio, a four-step
DARE exercise and AI-generated illustrations. Everything is written as
immutable datatypes and pure functions.

- **Journal query engine** (`Journal`): the history view's pipeline.
  - It filters by case-folded search text, by selected thinking traps (OR),
    and by mood band.
  - It then sorts stably by one of four keys.
  - Around it sit the trap toggles, the sort-option cycle, the filter reset
    and the "filter active" test.
  - Sequences are values, so the pipeline cannot reorder the `entries` it
    is given, just as the source copies the array before sorting.
- **Image service** (`ImageService`):
  - the key probe's fallback;
  - extraction of the first inline image from a generation reply;
  - the error-message classifier;
  - the image cache in browser storage, with its evict-all-then-retry-once
    write.
- **Self-loading image** (`LocalImage`): the `{src, loading, needsKey, error}`
  state machine. It covers mount, `fetchImage`, the two buttons and render
  precedence.
- **Library screen** (`Library`): the two catalogs, the search-and-tab
  filter, and the premium gate on a click.
- **Audio player** (`AudioPlayer`): the `m:ss` label, the clamped
  once-a-second tick, and play/pause.
- **DARE flow** (`DareFlow`): step navigation, button visibility and the
  progress segments.
- **App shell** (`AppShell`):
  - start-up defaults read from storage;
  - the journal prepend;
  - theme resolution and toggle;
  - purchase;
  - the write-back/reload round trip.

Shared pieces sit in three modules:

- `Types` holds the records from `types.ts`.
- `Text` holds ASCII lower-casing, substring search, decimal rendering and
  `padStart`.
- `Seqs` holds order-preserving filtering, subsequences and a stable
  insertion sort with its uniqueness theorem.

Clocks, the image cache's storage quota, the key probe and the generation
call are inputs to the functions that need them. The shell's own storage
writes are taken to succeed (see Left out).

Points where the model has to choose how to read the code:

- **Quota and permission errors.** The classifier's comment at
  `services/imageService.ts:73` says it handles 403 and 429. The key
  prompt's text at `components/LocalImage.tsx:70` tells the user the free
  quota is used up and asks for a key. Yet `fetchImage` does not catch the
  `ImageGenError` that generation throws, so the spinner stays up. See
  Findings.
  - `LocalImage.Fetch` and `LocalImage.Press` are the code as written.
  - `LocalImage.FetchIntended` and `LocalImage.PressIntended` catch the
    error and show the key prompt.
- **An image too large to store.** `imageCache.set` retries once after
  evicting every cached image, and that retry is not guarded. When it also
  fails, the exception leaves `fetchImage` before `setLoading(false)`. See
  Findings.
  - `LocalImage.Fetch` keeps this behaviour.
  - `LocalImage.FetchIntended` shows the image without caching it.
- **Ties in the journal sort.** The comparator returns zero for equal keys,
  and `Array.prototype.sort` is stable. Tied entries therefore keep their
  order in the `entries` array. The shell keeps that array newest first,
  because saving prepends.
- **Stored theme text.** The theme read back from storage is a bare cast, so
  unknown non-empty text survives as a mode. It is modelled as
  `ThemeMode.Unknown`, which renders light and toggles to dark.

## Model

| member | source | states |
|---|---|---|
| Text.ToLower | screens/JournalScreen.tsx:92-93 | lower-casing keeps the length, turns each upper-case ASCII letter into its own lower-case letter, and changes no other character |
| Text.SameUpToCaseIff | screens/JournalScreen.tsx:92-93 | two strings lower-case alike exactly when they differ only in the case of ASCII letters |
| Text.ContainsIff | screens/JournalScreen.tsx:92-93 | `includes` holds exactly when the needle occurs at some index of the haystack |
| Text.ContainsLength | screens/LibraryScreen.tsx:27 | only a needle no longer than the haystack can be found in it |
| Text.ContainsEmpty | screens/LibraryScreen.tsx:27 | the empty string is contained in every string, so an empty query matches |
| Text.NatToString | components/AudioPlayer.tsx:47 | decimal rendering: at least one digit, all digits, one digit exactly below ten, no leading zero |
| Text.ParseNatToString | components/AudioPlayer.tsx:47 | reading the rendered digits back gives the number |
| Text.PadStart | components/AudioPlayer.tsx:47 | `padStart` returns the string when it is long enough; otherwise it returns a string of exactly the width, ending in the original and starting with fill characters |
| Seqs.Filter | screens/JournalScreen.tsx:91-108 | `Array.filter`: no longer than the input; keeps exactly the elements that pass, and only elements of the input |
| Seqs.FilterCount | screens/JournalScreen.tsx:91-108 | each value appears in a filter's output as often as in its input if it passes, and not at all otherwise |
| Seqs.FilterIsSubsequence | screens/LibraryScreen.tsx:26-30 | a filter's output is a subsequence of its input, in input order |
| Seqs.FilterFilter | screens/JournalScreen.tsx:90-109 | two filters in a row are one filter by the conjunction |
| Seqs.Sort | screens/JournalScreen.tsx:112-120 | the sort is a permutation of its input and ascending in its key |
| Seqs.SortStable | screens/JournalScreen.tsx:112-120 | for every key value, the elements with that key keep their input order |
| Seqs.SortIsTheStableSort | screens/JournalScreen.tsx:112-120 | any key-sorted arrangement that keeps each tie class in input order equals the sort, so the sort is the stable sort of ECMA-262 |
| Journal.MatchesSearch | screens/JournalScreen.tsx:90-95 | the case-folded search matches every entry on an empty query, and never when the query is longer than both the thought and the reframe |
| Journal.SearchIgnoresCase | screens/JournalScreen.tsx:90-95 | queries that differ only in letter case match the same entries, and entries whose thought and reframe differ only in letter case are matched alike |
| Journal.SearchStageIsFilter | screens/JournalScreen.tsx:90-95 | the search stage keeps everything on an empty query, and otherwise keeps entries whose lower-cased thought or reframe contains the lower-cased query |
| Journal.TrapStageIsFilter | screens/JournalScreen.tsx:98-102 | the trap stage keeps everything when no trap is selected, and otherwise keeps entries sharing a selected trap |
| Journal.MoodStageIsFilter | screens/JournalScreen.tsx:105-109 | the mood stage keeps the entries in the chosen band |
| Journal.FilterStagesCompose | screens/JournalScreen.tsx:87-109 | the three stages in sequence are a single filter by the conjunction of the three tests |
| Journal.CompareIsKeyDifference | screens/JournalScreen.tsx:112-119 | each comparator is the difference of a per-option integer key and is antisymmetric |
| Journal.Compare | screens/JournalScreen.tsx:112-119 | the comparator puts the later entry first under LATEST, the earlier under OLDEST, the higher mood under MOOD_HIGH and the lower under MOOD_LOW, and ties exactly on equal keys |
| Journal.OrderedByIsSortedBy | screens/JournalScreen.tsx:112-119 | ordered by the comparator is the same as ascending in the key |
| Journal.ProcessEntries | screens/JournalScreen.tsx:86-123 | the pipeline keeps each selected entry as often as it occurs in the input and drops all others; it is no longer than the input, ordered by the chosen comparator, and keeps filtered order among ties |
| Journal.ProcessMembership | screens/JournalScreen.tsx:86-123 | an entry is listed exactly when it is in the input and passes all three filters |
| Journal.ProcessNoNewDuplicates | screens/JournalScreen.tsx:86-123 | the output never holds an entry more often than the input |
| Journal.ProcessPermutesFiltered | screens/JournalScreen.tsx:87-120 | the filtered list is a subsequence of the input and the output is a permutation of it |
| Journal.ProcessIsTheStableSort | screens/JournalScreen.tsx:112-122 | any comparator-ordered, tie-preserving arrangement of the filtered list is the output |
| Journal.EmptySearchMatchesAll | screens/JournalScreen.tsx:90 | the empty query matches every entry |
| Journal.TrapFilterIsUnion | screens/JournalScreen.tsx:98-102 | trap filtering is OR: one more selected trap adds exactly the entries tagged with it |
| Journal.MoodBands | screens/JournalScreen.tsx:105-109 | HIGH and LOW are disjoint, levels 5-6 pass only under ALL, ALL passes everything, and every level is in exactly one band |
| Journal.ToggleTrap | screens/JournalScreen.tsx:45-50 | toggling adds the trap exactly when it was absent, leaves every other trap as it was, and keeps the list duplicate-free |
| Journal.ToggleTrapTwice | screens/JournalScreen.tsx:45-50 | toggling twice restores the set of traps, and restores the list itself when the trap was absent |
| Journal.ToggleHistoryTrapFilter | screens/JournalScreen.tsx:125-130 | the history chip toggles one trap of the query and changes no other field |
| Journal.IndexOfSortCycle | screens/JournalScreen.tsx:134-135 | `indexOf` finds each option at its cycle position |
| Journal.CycleSort | screens/JournalScreen.tsx:132-137 | the next option is always different and sits one cycle position further, modulo four |
| Journal.CycleSortOrder | screens/JournalScreen.tsx:132-137 | the cycle runs LATEST, OLDEST, MOOD_HIGH, MOOD_LOW, LATEST |
| Journal.CycleSortFourPresses | screens/JournalScreen.tsx:132-137 | four presses return to the start, passing through all four options |
| Journal.ClearFilters | screens/JournalScreen.tsx:139-147 | after a reset no filter is active, the sort is LATEST, and the list is every entry sorted newest first |
| Journal.IsFilterActive | screens/JournalScreen.tsx:147 | the indicator is off only when every entry passes the query, and on exactly when the query hides an entry with empty texts, no traps and mood 5 |
| Journal.FilterActiveIgnoresSort | screens/JournalScreen.tsx:147 | whether a filter is active does not depend on the sort option |
| Journal.InactiveShowsEverything | screens/JournalScreen.tsx:86-123 | with no filter active the list is a permutation of all entries, sorted by the chosen key |
| ImageService.CheckHasApiKey | services/imageService.ts:8-13 | the probe's answer when present, true when the probe is absent |
| ImageService.FirstInlineImage | services/imageService.ts:61-68 | null exactly when no part has inline data; otherwise the data URI of the first part that does |
| ImageService.ClassifyError | services/imageService.ts:72-81 | the classifier yields no code other than 403 and 429 |
| ImageService.ClassifyErrorCases | services/imageService.ts:72-81 | 403 exactly when a permission pattern occurs; 429 exactly when only a quota pattern occurs; null when neither does |
| ImageService.FirstParts | services/imageService.ts:60-61 | the optional chain yields the first candidate's parts exactly when every link is present |
| ImageService.GenerateThematicImage | services/imageService.ts:34-83 | an answered reply yields an image exactly when the first candidate's parts hold inline data, and that image is the data URI of the first such part; otherwise null. A thrown error never yields an image; it yields an error code exactly when the classifier finds one, that code, and null otherwise |
| ImageService.CacheKey | services/imageService.ts:86-89 | every cache slot carries the `img_cache_` prefix |
| ImageService.CacheKeyInjective | services/imageService.ts:86-89 | different keys never share a slot |
| ImageService.EvictImages | services/imageService.ts:93-95 | eviction removes exactly the prefixed entries and keeps every other entry's value |
| ImageService.CacheSet | services/imageService.ts:87-97 | the write throws only when both attempts fail; after success `get` returns the data; it adds no other key and never touches a non-cache key; a first-try success changes no other key, and the eviction path removes every other cache entry; a write that throws leaves exactly the evicted store, with the key's own slot empty |
| ImageService.CacheGet | services/imageService.ts:86 | `get` finds a value exactly when the prefixed slot is present, and returns that slot's value |
| ImageService.GetUnsetKey | services/imageService.ts:86 | a never-written key reads as null, and writing another key does not change that |
| ImageService.EvictionLeavesOnlyNewImage | services/imageService.ts:90-96 | after eviction and a successful retry, the cache holds exactly the new image and nothing else changed |
| ImageService.AppKeysSurviveCacheWrites | services/imageService.ts:86-97 | the journal, theme and premium keys survive every cache write unchanged |
| LocalImage.Mount | components/LocalImage.tsx:15-18 | on mount `src` is the cached value, loading holds exactly when none was cached, and both flags are clear |
| LocalImage.MountSpinsIffFetching | components/LocalImage.tsx:15-47 | on mount the spinner shows exactly when the effect starts a fetch |
| LocalImage.FetchStart | components/LocalImage.tsx:21-22 | a fetch begins loading with `error` cleared, keeping `src` and `needsKey` |
| LocalImage.Fetch | components/LocalImage.tsx:20-41 | an image whose write fits is cached, shown and clears both flags; an image that cannot be stored leaves the spinner with the cached images evicted; a null result keeps `src` and sets `needsKey` without a key or `error` with one; an `ImageGenError` leaves the loading state untouched; `src` only ever changes to a truthy value |
| LocalImage.FetchIntended | components/LocalImage.tsx:20-41 | as `Fetch` wherever the code does not throw; a 403/429 error ends loading in the key prompt, and an image that cannot be stored is still shown |
| LocalImage.Render | components/LocalImage.tsx:56-103 | render precedence: spinner, then key prompt, then retry on error or no image, then the image itself |
| LocalImage.Press | components/LocalImage.tsx:49-93 | a button acts only when its view is on screen, and then runs `fetchImage` as written |
| LocalImage.PressIntended | components/LocalImage.tsx:49-93 | the same buttons running the corrected fetch |
| LocalImage.NoAutomaticRetry | components/LocalImage.tsx:43-47 | no fetch changes `src` to a falsy value, so the effect never re-runs by itself |
| LocalImage.PromptsWaitForTheirButton | components/LocalImage.tsx:65-93 | on the key prompt the retry button does nothing, and on the retry view the key button does nothing, with either fetch |
| LocalImage.QuotaErrorLeavesSpinner | components/LocalImage.tsx:27-40 | as written, a 403/429 error leaves the spinner with no button and no re-fetch |
| LocalImage.QuotaErrorAsksForKey | components/LocalImage.tsx:65-79 | with the error handled, a 403/429 error ends on the key prompt with its button offered |
| LocalImage.IntendedFetchSettles | components/LocalImage.tsx:40 | with both exceptions handled, every fetch ends off the spinner |
| LocalImage.StorageFullLeavesSpinner | components/LocalImage.tsx:28-40 | as written, an image that fails both cache writes leaves the spinner with no button and no re-fetch, and every cached image is gone |
| LocalImage.StorageFullStillShows | components/LocalImage.tsx:28-31 | with the storage error handled, a generated image is always shown, and cached exactly when a write fits |
| LocalImage.MissingProbeNeverAsksForKey | services/imageService.ts:8-13 | where the key probe is unavailable, a null result sets `error`, never raises `needsKey`, and shows the retry view unless the key prompt was already up |
| LocalImage.NoKeyAsksForKey | components/LocalImage.tsx:33-36 | when the probe reports no key, a null result shows the key prompt |
| LocalImage.FirstRequest | components/LocalImage.tsx:15-47 | first request for an uncached key, as written: an image whose write fits is shown and cached; a quota error, or an image that cannot be stored, leaves the spinner; a null result gives retry with a key and the key prompt without one |
| LocalImage.FirstRequestIntended | components/LocalImage.tsx:15-47 | the same first request with the corrected fetch: an image is always shown, a quota error gives the key prompt, and a null result behaves as written |
| Library.Catalog | screens/LibraryScreen.tsx:23 | RELAX mode lists the relax catalog, and the other mode the challenge catalog |
| Library.CatalogCategories | constants.ts:13-35 | every catalog track carries its catalog's category |
| Library.FilteredTracks | screens/LibraryScreen.tsx:25-31 | a track is listed exactly when it is in the catalog and matches both search and tab; the list is a subsequence of the catalog |
| Library.EmptyQueryAllTabIsCatalog | screens/LibraryScreen.tsx:27-28 | an empty query on ALL lists the whole catalog in order |
| Library.AllTabIsSearchOnly | screens/LibraryScreen.tsx:28 | the ALL tab removes nothing the search keeps |
| Library.NarrowTabsAreEmpty | screens/LibraryScreen.tsx:28 | the BODILY and SITUATIONAL tabs always list nothing |
| Library.MatchesSearch | screens/LibraryScreen.tsx:27 | the search matches every track on an empty query, and never when the query is longer than both the Arabic label and the title |
| Library.TitleSearchIgnoresCase | screens/LibraryScreen.tsx:27 | queries that differ only in letter case find the same titles, and titles that differ only in letter case are found by the same queries |
| Library.HandleTrackClick | screens/LibraryScreen.tsx:38-46 | a locked track requests the upgrade and leaves the player alone; any other track starts playing |
| Library.LockedTracksNeverPlay | screens/LibraryScreen.tsx:38-46 | without premium, no series of clicks puts a premium track in the player |
| Library.PremiumPlaysLastClick | screens/LibraryScreen.tsx:38-46 | with premium, the player holds the last track clicked |
| Library.FreeTracksPlay | screens/LibraryScreen.tsx:38-46 | without premium, a click plays exactly the free tracks |
| AudioPlayer.TruncRem | components/AudioPlayer.tsx:46 | JavaScript `%` with a positive divisor: the dividend minus the result is a multiple of the divisor, and the result lies in [0, divisor) for a non-negative dividend and in (-divisor, 0] for a negative one |
| AudioPlayer.FormatTime | components/AudioPlayer.tsx:44-48 | for a non-negative time the label is the minutes, a colon and a two-digit seconds field |
| AudioPlayer.TwoDigits | components/AudioPlayer.tsx:47 | the padded seconds field has exactly two digits and reads back as the seconds |
| AudioPlayer.ParseTimeOf | components/AudioPlayer.tsx:47 | a minutes-colon-seconds label reads back as those two numbers |
| AudioPlayer.FormatTimeRoundTrip | components/AudioPlayer.tsx:44-48 | every non-negative time renders with a colon before two digits, and its minutes times 60 plus seconds give the time back |
| AudioPlayer.FormatFullTrack | components/AudioPlayer.tsx:17-48 | the full track of 1197 seconds renders as "19:57" |
| AudioPlayer.Tick | components/AudioPlayer.tsx:24-30 | at or past the end a tick stops playback and pins the time to the end; otherwise it advances one second |
| AudioPlayer.Second | components/AudioPlayer.tsx:21-36 | the interval only runs while playing |
| AudioPlayer.TickKeepsRange | components/AudioPlayer.tsx:24-30 | a tick keeps the position within the track and never moves it back |
| AudioPlayer.SecondsKeepRange | components/AudioPlayer.tsx:21-36 | any number of seconds keeps the position within the track, monotone, so the time remaining is never negative |
| AudioPlayer.PlaysToTheEnd | components/AudioPlayer.tsx:24-30 | played from `t`, the track reaches its end after `duration - t` seconds and stops on the next |
| AudioPlayer.TogglePlay | components/AudioPlayer.tsx:38-42 | play/pause flips `isPlaying` and keeps the position |
| AudioPlayer.TogglePlayTwice | components/AudioPlayer.tsx:41 | two toggles restore the player |
| AudioPlayer.Remaining | components/AudioPlayer.tsx:65 | within the track the time remaining lies between zero and the duration |
| AudioPlayer.RemainingLabel | components/AudioPlayer.tsx:65 | the mini player's label always reads back as the seconds remaining |
| DareFlow.Press | screens/DAREFlowScreen.tsx:23-101 | Next adds one and Previous subtracts one, each only when on screen; the finish and close buttons finish |
| DareFlow.CurrentStep | screens/DAREFlowScreen.tsx:14 | the step shown is one of the four DARE steps |
| DareFlow.Visible | screens/DAREFlowScreen.tsx:76-101 | nothing shows once finished and close always shows before then; Previous and Next show only where the press stays within the steps, and finish only on the last step |
| DareFlow.PressKeepsBounds | screens/DAREFlowScreen.tsx:76-93 | every press keeps the step index in range |
| DareFlow.ReachableInBounds | screens/DAREFlowScreen.tsx:12-93 | every sequence of presses keeps the index in range, so the step lookup never fails |
| DareFlow.StartInBounds | screens/DAREFlowScreen.tsx:12-14 | the flow starts at the first step, "defuse" |
| DareFlow.NextThenPrevious | screens/DAREFlowScreen.tsx:23-31 | Next then Previous returns to the same step |
| DareFlow.FinishReplacesNext | screens/DAREFlowScreen.tsx:41-101 | exactly one of Next and finish is shown, finish exactly on the last step; close is always shown |
| DareFlow.CloseAlwaysFinishes | screens/DAREFlowScreen.tsx:41 | close finishes from any step |
| DareFlow.WalkThrough | screens/DAREFlowScreen.tsx:86-101 | three Next presses reach "engage", where the finish button is shown |
| DareFlow.LitCount | screens/DAREFlowScreen.tsx:47-49 | among the first `n` segments exactly those up to the current step are lit: `n` or `stepIndex + 1`, whichever is smaller, and none for a negative index |
| DareFlow.LitSegments | screens/DAREFlowScreen.tsx:47-49 | exactly `stepIndex + 1` segments are lit |
| AppShell.ParseThemeMode | App.tsx:23-26 | "light", "dark" and "system" read as those modes; any other text is kept as it is |
| AppShell.Boot | App.tsx:15-26 | start-up gives the stored journal or none, premium exactly when the flag is "true", the parsed stored theme when it is non-empty, and system otherwise |
| AppShell.IsDark | App.tsx:33-39 | system follows the media query; otherwise dark exactly in dark mode |
| AppShell.ToggleTheme | App.tsx:82 | dark toggles to light and every other mode to dark |
| AppShell.ToggleThemeFlips | App.tsx:33-82 | outside system mode a toggle always flips what is shown; from system it always shows dark |
| AppShell.SaveEntry | App.tsx:88 | saving puts the entry in front, grows the list by one and keeps the old entries in order |
| AppShell.SaveKeepsNewestFirst | App.tsx:88 | saving entries with non-decreasing times keeps the journal newest first |
| AppShell.SavedEntryListed | App.tsx:88 | a saved entry appears in the history under every query that selects it |
| AppShell.Purchase | App.tsx:115 | purchase sets premium and changes nothing else |
| AppShell.OptionMode | screens/ProfileScreen.tsx:17-21 | each picker button passes a named mode, and that mode survives a write-back and reload |
| AppShell.SetThemeMode | App.tsx:122 | the setter, given a named mode as its callers at App.tsx:82 and screens/ProfileScreen.tsx:105 always pass, sets it, changes nothing else, and leaves a mode the shell can hold |
| AppShell.JournalCount | App.tsx:123 | the profile's count is the number of entries |
| AppShell.EventsKeepPremiumAndJournal | App.tsx:88-115 | no event ever revokes premium; the journal grows by exactly one entry per save, with the old entries in order at the tail; no event leaves the shell with a theme mode it could not hold |
| AppShell.Persist | App.tsx:42-52 | when every write fits, write-back stores the journal and the theme text, and "true" once premium |
| AppShell.PersistThenBoot | App.tsx:15-52 | reloading after a write-back whose writes all fit restores the same state, whenever the old premium flag does not already read "true" without premium |
| AppShell.FirstLaunch | App.tsx:15-26 | a first launch has an empty journal, no premium and the system theme |

## Left out

- Rendering, styling and navigation chrome (the home, profile and paywall screens). They hold no decision logic.
- Haptic feedback (`utils/haptics.ts`). It is device I/O with no effect on state.
- The text-model wrapper (`services/geminiService.ts`) and the journal's AI reframe and submit handlers. They are network calls and form resets; `Date.now()` ids and timestamps would be inputs.
- The network call for images, and the key dialog (`openKeySelector`). Their outcome is the `Reply` input, and the key probe's answer is an `Option<bool>` input.
- Browser storage quotas for the image cache. Whether the cache's `setItem` fits is the pair of inputs `firstFits`/`retryFits`; no other write has a quota input.
- AppShell.Persist: takes the shell's three storage writes to fit: the theme (App.tsx:42), the journal (App.tsx:51) and the premium flag (App.tsx:115). A write that throws on a full store is not modelled. A purchase made then stays on for the session but is lost on reload, so `AppShell.PersistThenBoot` covers only writes that succeed.
- The two views of browser storage are not related. `ImageService.Storage` is a map over all keys; `AppShell.Stored` holds only the shell's three values. No lemma reads one out of the other.
- JSON serialisation of the journal. Storage holds the decoded list.
- Timers: the splash delay, the player's interval and the DARE narration hint. A tick is a step function, and a run of the timer is a number of ticks.
- Locale date formatting and the player's floating-point progress bar.
- Races between concurrent image loads and asynchronous interleaving inside `fetchImage`. The fetch is one atomic step.
- Re-running the image effect when the `cacheKey` or `prompt` props change. Only the `src` dependency is modelled.
- Text.ToLower: folds ASCII letters only, not full Unicode case mapping. The searched Arabic text has no case.
- AppShell.Boot: does not model a stored journal that fails to parse (the source would throw).

## Findings

| source | as written | input that shows it | evidently intended | confidence | as-written member | corrected member |
|---|---|---|---|---|---|---|
| components/LocalImage.tsx:27-40 | `fetchImage` awaits `generateThematicImage` without a try/catch. The `ImageGenError` it throws for 403/429 skips `setLoading(false)`, leaving the spinner up with no button; the effect does not re-run because `src` is unchanged. | an uncached image whose generation call fails with a message containing "429" or "RESOURCE_EXHAUSTED" | catch the error and show the key prompt (`needsKey`), as the 403/429 codes exist for | not executed | LocalImage.QuotaErrorLeavesSpinner | LocalImage.QuotaErrorAsksForKey |
| components/LocalImage.tsx:28-40 | `fetchImage` calls `imageCache.set` without a try/catch. When the image does not fit even after every cached image is evicted, the unguarded retry at `services/imageService.ts:96` throws, `setLoading(false)` never runs, and the spinner stays up with no button. | an uncached image whose data URI is larger than the whole storage quota | catch the storage failure and show the image without caching it, since the cache is only an optimisation | not executed | LocalImage.StorageFullLeavesSpinner | LocalImage.StorageFullStillShows |

=== FILE: app_shell.dfy ===
/** The application shell (App.tsx): the state it restores from browser
    storage at start-up, saving a journal entry, resolving and toggling the
    theme, and unlocking premium. Storage is a record of the three values
    the shell reads; the journal is kept already decoded, since JSON
    serialisation is outside the model. It is a separate view of the same
    browser storage that `ImageService.Storage` models as a map, and the two
    are not related here; every write the shell makes is taken to fit. */
module AppShell {
  import opened Types
  import Journal

  /** What storage holds under `journal_entries`, `is_premium` and `theme_mode`
      (None when the key is absent). */
  datatype Stored = Stored(journal: Option<seq<MoodEntry>>, premium: Option<string>, theme: Option<string>)

  datatype AppState = AppState(entries: seq<MoodEntry>, isPremium: bool, themeMode: ThemeMode)

  /** The stored theme text as the shell reads it back: a bare cast, so any
      other text is kept as it is. */
  function ParseThemeMode(raw: string): (m: ThemeMode)
    ensures m.Unknown? <==> raw !in {"light", "dark", "system"}
    ensures m.Unknown? ==> m.raw == raw
    ensures raw == "light" ==> m == Light
    ensures raw == "dark" ==> m == Dark
    ensures raw == "system" ==> m == System
  {
    if raw == "light" then Light
    else if raw == "dark" then Dark
    else if raw == "system" then System
    else Unknown(raw)
  }

  /** The text `updateTheme` writes to storage. */
  function ThemeText(m: ThemeMode): string
  {
    match m
    case Light => "light"
    case Dark => "dark"
    case System => "system"
    case Unknown(raw) => raw
  }

  /** A mode the shell can hold: an unknown one only ever comes from text that
      names no mode and is not empty. */
  predicate ValidMode(m: ThemeMode)
  {
    m.Unknown? ==> m.raw !in {"light", "dark", "system", ""}
  }

  /** The state at start-up: the stored journal or none; premium only when the
      stored flag is exactly "true"; the stored theme, or system when it is
      missing or empty. */
  function Boot(st: Stored): (s: AppState)
    ensures st.journal.None? ==> s.entries == []
    ensures st.journal.Some? ==> s.entries == st.journal.value
    ensures s.isPremium <==> st.premium == Some("true")
    ensures st.theme.None? || st.theme == Some("") ==> s.themeMode == System
    ensures st.theme.Some? && st.theme.value != "" ==> s.themeMode == ParseThemeMode(st.theme.value)
    ensures ValidMode(s.themeMode)
  {
    var theme := if st.theme.Some? && st.theme.value != "" then ParseThemeMode(st.theme.value) else System;
    AppState(st.journal.GetOr([]), st.premium == Some("true"), theme)
  }

  /** `updateTheme`: under system the media query decides; otherwise dark
      exactly in dark mode. */
  function IsDark(m: ThemeMode, prefersDark: bool): (dark: bool)
    ensures m == System ==> dark == prefersDark
    ensures m != System ==> (dark <==> m == Dark)
  {
    match m
    case System => prefersDark
    case Dark => true
    case _ => false
  }

  /** The home screen's theme toggle. */
  function ToggleTheme(m: ThemeMode): (r: ThemeMode)
    ensures m == Dark ==> r == Light
    ensures m != Dark ==> r == Dark
  {
    if m == Dark then Light else Dark
  }

  /** A toggle always flips what is on screen when the mode is not system, and
      from system mode it lands on dark whatever the media query says. */
  lemma ToggleThemeFlips(m: ThemeMode, prefersDark: bool)
    ensures m != System ==> IsDark(ToggleTheme(m), prefersDark) != IsDark(m, prefersDark)
    ensures m == System ==> IsDark(ToggleTheme(m), prefersDark)
    ensures ToggleTheme(ToggleTheme(m)) == (if m == Dark then Dark else Light)
  {
  }

  /** `onSave`: the new entry goes in front. */
  function SaveEntry(s: AppState, entry: MoodEntry): (r: AppState)
    ensures r.entries == [entry] + s.entries
    ensures |r.entries| == |s.entries| + 1
    ensures r.entries[1..] == s.entries
    ensures r.isPremium == s.isPremium && r.themeMode == s.themeMode
  {
    s.(entries := [entry] + s.entries)
  }

  /** Entries are kept newest first: when every save carries a later time
      than the last, the list stays in descending time order. */
  lemma SaveKeepsNewestFirst(s: AppState, entry: MoodEntry)
    requires Journal.OrderedBy(Journal.Latest, s.entries)
    requires forall i :: 0 <= i < |s.entries| ==> s.entries[i].timestamp <= entry.timestamp
    ensures Journal.OrderedBy(Journal.Latest, SaveEntry(s, entry).entries)
  {
    var r := SaveEntry(s, entry).entries;
    forall i, j | 0 <= i < j < |r|
      ensures Journal.Compare(Journal.Latest, r[i], r[j]) <= 0
    {
      if i > 0 {
        assert r[i] == s.entries[i - 1] && r[j] == s.entries[j - 1];
      } else {
        assert r[j] == s.entries[j - 1];
      }
    }
  }

  /** A saved entry shows up in the journal's list under any query that
      selects it. */
  lemma SavedEntryListed(s: AppState, entry: MoodEntry, q: Journal.HistoryQuery)
    requires Journal.Selected(q, entry)
    ensures entry in Journal.ProcessEntries(SaveEntry(s, entry).entries, q)
  {
    var e := SaveEntry(s, entry).entries;
    assert multiset(e)[entry] > 0;
    assert multiset(Journal.ProcessEntries(e, q))[entry] > 0;
  }

  /** The paywall's purchase: premium from now on. */
  function Purchase(s: AppState): (r: AppState)
    ensures r.isPremium
    ensures r.entries == s.entries && r.themeMode == s.themeMode
  {
    s.(isPremium := true)
  }

  /** The three buttons of the profile screen's theme picker. */
  datatype ThemeOption = LightOption | DarkOption | SystemOption

  /** The mode each button passes to the setter. */
  function OptionMode(o: ThemeOption): (m: ThemeMode)
    ensures !m.Unknown?
    ensures ParseThemeMode(ThemeText(m)) == m
  {
    match o
    case LightOption => Light
    case DarkOption => Dark
    case SystemOption => System
  }

  /** The theme setter. Its callers, the picker and the toggle, only ever pass
      one of the three named modes. */
  function SetThemeMode(s: AppState, m: ThemeMode): (r: AppState)
    requires !m.Unknown?
    ensures r.themeMode == m
    ensures ValidMode(r.themeMode)
    ensures r.entries == s.entries && r.isPremium == s.isPremium
  {
    s.(themeMode := m)
  }

  /** The profile screen's entry count. */
  function JournalCount(s: AppState): (n: nat)
    ensures n == |s.entries|
  {
    |s.entries|
  }

  /** The things a user can do that change the shell's state. */
  datatype Event =
    | Saved(entry: MoodEntry)
    | Purchased
    | ThemeToggled
    | ThemeChosen(option: ThemeOption)

  function Apply(s: AppState, e: Event): AppState
  {
    match e
    case Saved(entry) => SaveEntry(s, entry)
    case Purchased => Purchase(s)
    case ThemeToggled => SetThemeMode(s, ToggleTheme(s.themeMode))
    case ThemeChosen(o) => SetThemeMode(s, OptionMode(o))
  }

  function ApplyAll(s: AppState, events: seq<Event>): AppState
    decreases |events|
  {
    if |events| == 0 then s else ApplyAll(Apply(s, events[0]), events[1..])
  }

  function CountSaves(events: seq<Event>): nat
  {
    if |events| == 0 then 0 else (if events[0].Saved? then 1 else 0) + CountSaves(events[1..])
  }

  /** Once premium, always premium: no event takes it away. The journal grows
      by one entry per save and by nothing else, and old entries keep their
      order at the tail. A mode the shell can hold stays one. */
  lemma {:induction false} EventsKeepPremiumAndJournal(s: AppState, events: seq<Event>)
    ensures s.isPremium ==> ApplyAll(s, events).isPremium
    ensures |ApplyAll(s, events).entries| == |s.entries| + CountSaves(events)
    ensures ApplyAll(s, events).entries[CountSaves(events)..] == s.entries
    ensures ValidMode(s.themeMode) ==> ValidMode(ApplyAll(s, events).themeMode)
    decreases |events|
  {
    if |events| > 0 {
      EventsKeepPremiumAndJournal(Apply(s, events[0]), events[1..]);
      var t := Apply(s, events[0]);
      var n := CountSaves(events[1..]);
      if events[0].Saved? {
        assert ApplyAll(s, events).entries[n + 1..] == ApplyAll(t, events[1..]).entries[n..][1..];
      }
    }
  }

  /** What the shell writes back: the journal after every change, the theme
      after every change, and "true" under `is_premium` once purchased. */
  function Persist(before: Stored, s: AppState): (st: Stored)
    ensures st.journal == Some(s.entries)
    ensures st.theme == Some(ThemeText(s.themeMode))
    ensures s.isPremium ==> st.premium == Some("true")
    ensures !s.isPremium ==> st.premium == before.premium
  {
    Stored(Some(s.entries), if s.isPremium then Some("true") else before.premium, Some(ThemeText(s.themeMode)))
  }

  /** Reloading after a write-back restores the same state: storage and the
      shell agree on every field. A premium flag is never cleared, so the only
      storage that reloads differently is one whose old flag reads "true"
      while the shell holds no premium. */
  lemma PersistThenBoot(before: Stored, s: AppState)
    requires ValidMode(s.themeMode)
    requires !s.isPremium ==> before.premium != Some("true")
    ensures Boot(Persist(before, s)) == s
  {
    match s.themeMode
    case Unknown(raw) => assert ThemeText(s.themeMode) == raw;
    case _ =>
  }

  /** A first launch: no journal, no premium, system theme. */
  lemma FirstLaunch()
    ensures Boot(Stored(None, None, None)) == AppState([], false, System)
    ensures JournalCount(Boot(Stored(None, None, None))) == 0
  {
  }
}

=== FILE: audio_player.dfy ===
/** The audio player (components/AudioPlayer.tsx): the `m:ss` time label, the
    once-a-second tick that clamps at the track's end and stops playback, and
    the play/pause toggle. The interval timer is replaced by the tick itself;
    a run of the timer is a number of ticks. */
module AudioPlayer {
  import opened Types
  import opened Text
  import opened Seqs

  /** The fixed duration every track gets, in seconds (19:57). */
  const TrackDuration: int := 1197

  // ---------------------------------------------------------------------------
  // Time label

  /** JavaScript's `%`: the remainder takes the sign of the dividend. With
      the range, `a - r` being a multiple of `b` fixes it uniquely. */
  function TruncRem(a: int, b: int): (r: int)
    requires b > 0
    ensures a >= 0 ==> 0 <= r < b
    ensures a >= 0 ==> r == a % b
    ensures a < 0 ==> -b < r <= 0
    ensures (a - r) % b == 0
  {
    TruncRemMultiple(a, b);
    if a >= 0 then a % b else -((-a) % b)
  }

  /** Taking away the remainder, of either sign, leaves a multiple of `b`. */
  lemma TruncRemMultiple(a: int, b: int)
    requires b > 0
    ensures a >= 0 ==> (a - a % b) % b == 0
    ensures a < 0 ==> (a + (-a) % b) % b == 0
  {
    if a >= 0 {
      var q := a / b;
      assert a - a % b == q * b;
      MultipleMod(q, b);
    } else {
      var q := (-a) / b;
      assert -a == q * b + (-a) % b;
      MulDistance(0, q, b);
      assert a + (-a) % b == (0 - q) * b;
      MultipleMod(0 - q, b);
    }
  }

  /** A multiple of `b`, of either sign, leaves no remainder. */
  lemma MultipleMod(q: int, b: int)
    requires b > 0
    ensures (q * b) % b == 0
  {
    var m := q * b;
    assert m == q * b + 0;
    assert m / b == q && m % b == 0 by {
      DivModUnique(m, b, q, 0);
    }
  }

  /** Euclidean division has one quotient and remainder. */
  lemma DivModUnique(m: int, b: int, q: int, r: int)
    requires b > 0 && 0 <= r < b && m == q * b + r
    ensures m / b == q && m % b == r
  {
    var q0, r0 := m / b, m % b;
    assert q0 * b + r0 == q * b + r;
    if q0 != q {
      var d := if q > q0 then q - q0 else q0 - q;
      MulDistance(q, q0, b);
      MulAtLeast(d, b);
      assert false;
    }
  }

  /** Multiplication distributes over a difference. */
  lemma MulDistance(q: int, q0: int, b: int)
    ensures q * b - q0 * b == (q - q0) * b
    ensures q0 * b - q * b == (q0 - q) * b
  {
  }

  /** A positive multiple of `b` is at least `b`. */
  lemma MulAtLeast(d: int, b: int)
    requires d >= 1 && b > 0
    ensures d * b >= b
  {
    assert d * b == (d - 1) * b + b;
  }

  /** `formatTime`: `Math.floor(s / 60)`, a colon, and `s % 60` padded on the
      left with '0' to two characters. Dafny's division by a positive divisor
      already rounds down. */
  function FormatTime(seconds: int): (r: string)
    ensures seconds >= 0 ==> r == NatToString(seconds / 60) + ":" + TwoDigits(seconds % 60)
  {
    IntToString(seconds / 60) + ":" + PadStart(IntToString(TruncRem(seconds, 60)), 2, '0')
  }

  /** The seconds field of a label. */
  function TwoDigits(n: nat): (r: string)
    requires n < 60
    ensures |r| == 2 && AllDigits(r)
    ensures ParseNat(r) == n
  {
    var d := NatToString(n);
    ParseNatToString(n);
    if n < 10 then
      ParseNatLeadingZero(d);
      "0" + d
    else
      assert |d| == 2 by {
        assert NatToString(n / 10) == [DigitChar(n / 10)];
      }
      d
  }

  /** The two numbers a label shows. */
  datatype Clock = Clock(minutes: nat, seconds: nat)

  /** Reads an `m:ss` label back: digits, a colon, digits. */
  function ParseTime(shown: string): (r: Option<Clock>)
  {
    var i := IndexOf(shown, ':');
    if i < 0 then None
    else
      var m := shown[..i];
      var s := shown[i + 1..];
      if |m| > 0 && |s| > 0 && AllDigits(m) && AllDigits(s) then Some(Clock(ParseNat(m), ParseNat(s)))
      else None
  }

  /** A label that reads back as `seconds`: minutes and a seconds field below
      60 that add up to it. */
  predicate ReadsAs(shown: string, seconds: int)
  {
    && ParseTime(shown).Some?
    && ParseTime(shown).value.seconds < 60
    && ParseTime(shown).value.minutes * 60 + ParseTime(shown).value.seconds == seconds
  }

  /** A label built from a minute count and a seconds field reads back as
      those two numbers. */
  lemma ParseTimeOf(minutes: nat, secs: nat)
    requires secs < 60
    ensures ParseTime(NatToString(minutes) + ":" + TwoDigits(secs)) == Some(Clock(minutes, secs))
  {
    var m := NatToString(minutes);
    var ss := TwoDigits(secs);
    var shown := m + ":" + ss;
    assert ':' !in m by {
      forall k | 0 <= k < |m|
        ensures m[k] != ':'
      {
        assert IsDigit(m[k]);
      }
    }
    assert shown[..|m|] == m;
    assert IndexOf(shown, ':') == |m|;
    assert shown[|m| + 1..] == ss;
    ParseNatToString(minutes);
  }

  /** Every non-negative time renders as whole minutes and a two-digit seconds
      field below 60 that read back as the same number of seconds. */
  lemma FormatTimeRoundTrip(seconds: int)
    requires seconds >= 0
    ensures var shown := FormatTime(seconds);
            && |shown| >= 4
            && shown[|shown| - 3] == ':'
            && IsDigit(shown[|shown| - 2]) && IsDigit(shown[|shown| - 1])
            && ReadsAs(shown, seconds)
  {
    var minutes, secs := seconds / 60, seconds % 60;
    assert minutes * 60 + secs == seconds;
    ParseTimeOf(minutes, secs);
  }

  /** The label under the slider at the start of every track. */
  lemma FormatFullTrack()
    ensures FormatTime(TrackDuration) == "19:57"
  {
    assert NatToString(19) == "19" by {
      assert NatToString(1) == "1";
    }
    assert NatToString(57) == "57" by {
      assert NatToString(5) == "5";
    }
  }

  // ---------------------------------------------------------------------------
  // Playback

  datatype Player = Player(isPlaying: bool, currentTime: int)

  /** The interval's state update. At or past the end it stops playback and
      pins the time to the end; otherwise it advances one second. */
  function Tick(p: Player, duration: int): (r: Player)
    ensures p.currentTime >= duration ==> r == Player(false, duration)
    ensures p.currentTime < duration ==> r == p.(currentTime := p.currentTime + 1)
  {
    if p.currentTime >= duration then Player(false, duration)
    else p.(currentTime := p.currentTime + 1)
  }

  /** One second of wall time: the interval only runs while playing. */
  function Second(p: Player, duration: int): (r: Player)
    ensures !p.isPlaying ==> r == p
    ensures p.isPlaying ==> r == Tick(p, duration)
  {
    if p.isPlaying then Tick(p, duration) else p
  }

  function Seconds(p: Player, duration: int, n: nat): Player
    decreases n
  {
    if n == 0 then p else Seconds(Second(p, duration), duration, n - 1)
  }

  predicate InRange(p: Player, duration: int)
  {
    0 <= p.currentTime <= duration
  }

  /** A tick keeps the position within the track and never moves it back. */
  lemma TickKeepsRange(p: Player, duration: int)
    requires InRange(p, duration)
    ensures InRange(Tick(p, duration), duration)
    ensures Tick(p, duration).currentTime >= p.currentTime
  {
  }

  /** Any number of seconds keeps the position within the track, never moves
      it back, and leaves a time remaining that renders as a proper label. */
  lemma {:induction false} SecondsKeepRange(p: Player, duration: int, n: nat)
    requires InRange(p, duration)
    ensures InRange(Seconds(p, duration, n), duration)
    ensures Seconds(p, duration, n).currentTime >= p.currentTime
    ensures duration - Seconds(p, duration, n).currentTime >= 0
    decreases n
  {
    if n > 0 {
      TickKeepsRange(p, duration);
      SecondsKeepRange(Second(p, duration), duration, n - 1);
    }
  }

  /** Played from position `t`, the track reaches its end after `duration - t`
      seconds, still playing, and stops on the next second. */
  lemma {:induction false} PlaysToTheEnd(t: int, duration: int)
    requires 0 <= t <= duration
    ensures Seconds(Player(true, t), duration, duration - t) == Player(true, duration)
    ensures Seconds(Player(true, t), duration, duration - t + 1) == Player(false, duration)
    decreases duration - t
  {
    if t < duration {
      PlaysToTheEnd(t + 1, duration);
    }
  }

  /** `togglePlay`. */
  function TogglePlay(p: Player): (r: Player)
    ensures r.isPlaying != p.isPlaying
    ensures r.currentTime == p.currentTime
  {
    p.(isPlaying := !p.isPlaying)
  }

  lemma TogglePlayTwice(p: Player)
    ensures TogglePlay(TogglePlay(p)) == p
  {
  }

  /** The time the mini player shows: what is left of the track. */
  function Remaining(p: Player, duration: int): (r: int)
    ensures InRange(p, duration) ==> 0 <= r <= duration
  {
    duration - p.currentTime
  }

  /** Within the track the mini player's label always reads back as the
      seconds remaining, so it never shows a negative time. */
  lemma RemainingLabel(p: Player, duration: int)
    requires InRange(p, duration)
    ensures ReadsAs(FormatTime(Remaining(p, duration)), Remaining(p, duration))
  {
    FormatTimeRoundTrip(Remaining(p, duration));
  }
}

=== FILE: dare_flow.dfy ===
/** The guided DARE exercise (screens/DAREFlowScreen.tsx): four steps
    (constants.ts), Previous and Next buttons that appear only where they
    keep the step in range, a finish button on the last step, a close button
    that always finishes, and the progress segments. */
module DareFlow {

  /** The step ids in order. Titles, instructions and narration are display
      text only. */
  const DareStepIds: seq<string> := ["defuse", "allow", "run_toward", "engage"]

  const StepCount: int := |DareStepIds|

  /** The screen's state: the current step, and whether `onFinish` has been
      called (after which the screen is gone). */
  datatype Flow = Flow(stepIndex: int, finished: bool)

  const Start: Flow := Flow(0, false)

  datatype Button = Previous | Next | FinishButton | Close

  /** Which buttons are on screen: nothing once finished, close always before
      that, Previous and Next only where a press stays within the steps, and
      the finish button only on the last step. */
  function Visible(f: Flow, b: Button): (r: bool)
    ensures r ==> !f.finished
    ensures b == Close ==> (r <==> !f.finished)
    ensures r && b == Next && 0 <= f.stepIndex ==> f.stepIndex + 1 < StepCount
    ensures r && b == Previous && f.stepIndex < StepCount ==> 0 <= f.stepIndex - 1
    ensures r && b == FinishButton && InBounds(f) ==> f.stepIndex == StepCount - 1
  {
    !f.finished &&
    match b
    case Previous => f.stepIndex > 0
    case Next => f.stepIndex < StepCount - 1
    case FinishButton => !(f.stepIndex < StepCount - 1)
    case Close => true
  }

  /** A press: `nextStep`, `prevStep`, or `handleFinish` for both the finish
      and the close button. A button not on screen cannot be pressed. */
  function Press(f: Flow, b: Button): (r: Flow)
    ensures !Visible(f, b) ==> r == f
    ensures Visible(f, b) && b == Next ==> r == Flow(f.stepIndex + 1, false)
    ensures Visible(f, b) && b == Previous ==> r == Flow(f.stepIndex - 1, false)
    ensures Visible(f, b) && (b == FinishButton || b == Close) ==> r == Flow(f.stepIndex, true)
  {
    if !Visible(f, b) then f
    else
      match b
      case Next => f.(stepIndex := f.stepIndex + 1)
      case Previous => f.(stepIndex := f.stepIndex - 1)
      case _ => f.(finished := true)
  }

  function Run(f: Flow, presses: seq<Button>): Flow
    decreases |presses|
  {
    if |presses| == 0 then f else Run(Press(f, presses[0]), presses[1..])
  }

  predicate InBounds(f: Flow)
  {
    0 <= f.stepIndex < StepCount
  }

  /** The step on screen, read only where the index is in range. */
  function CurrentStep(f: Flow): (id: string)
    requires InBounds(f)
    ensures id in DareStepIds
  {
    DareStepIds[f.stepIndex]
  }

  /** Every press keeps the step index within the step list. */
  lemma PressKeepsBounds(f: Flow, b: Button)
    requires InBounds(f)
    ensures InBounds(Press(f, b))
  {
  }

  /** Every sequence of presses from the first step keeps the index in range,
      so the step lookup never leaves the list. */
  lemma {:induction false} ReachableInBounds(f: Flow, presses: seq<Button>)
    requires InBounds(f)
    ensures InBounds(Run(f, presses))
    decreases |presses|
  {
    if |presses| > 0 {
      PressKeepsBounds(f, presses[0]);
      ReachableInBounds(Press(f, presses[0]), presses[1..]);
    }
  }

  lemma StartInBounds()
    ensures InBounds(Start) && CurrentStep(Start) == "defuse"
  {
  }

  /** Next then Previous comes back to the same step. */
  lemma NextThenPrevious(f: Flow)
    requires InBounds(f) && Visible(f, Next)
    ensures Visible(Press(f, Next), Previous)
    ensures Press(Press(f, Next), Previous) == f
  {
  }

  /** Exactly one of Next and the finish button is on screen, and the finish
      button is on exactly the last step. */
  lemma FinishReplacesNext(f: Flow)
    requires InBounds(f) && !f.finished
    ensures Visible(f, Next) != Visible(f, FinishButton)
    ensures Visible(f, FinishButton) <==> f.stepIndex == StepCount - 1
    ensures Visible(f, Close)
  {
  }

  /** The close button finishes from any step. */
  lemma CloseAlwaysFinishes(f: Flow)
    requires !f.finished
    ensures Press(f, Close).finished
  {
  }

  /** Three Next presses walk through every step to the last. */
  lemma WalkThrough()
    ensures Run(Start, [Next, Next, Next]) == Flow(3, false)
    ensures CurrentStep(Run(Start, [Next, Next, Next])) == "engage"
    ensures Visible(Run(Start, [Next, Next, Next]), FinishButton)
  {
    assert Run(Start, [Next, Next, Next]) == Run(Flow(1, false), [Next, Next]);
    assert Run(Flow(1, false), [Next, Next]) == Run(Flow(2, false), [Next]);
  }

  // ---------------------------------------------------------------------------
  // Progress segments

  /** Segment `i` is lit when it is at or before the current step. */
  predicate Lit(f: Flow, i: int)
  {
    i <= f.stepIndex
  }

  /** The number of lit segments among the first `n`: all of them up to the
      current step, none when the index is negative. */
  function LitCount(f: Flow, n: nat): (c: nat)
    ensures c <= n
    ensures c == if f.stepIndex < 0 then 0 else if n <= f.stepIndex then n else f.stepIndex + 1
    decreases n
  {
    if n == 0 then 0 else LitCount(f, n - 1) + (if Lit(f, n - 1) then 1 else 0)
  }

  /** Exactly `stepIndex + 1` of the segments are lit. */
  lemma LitSegments(f: Flow)
    requires InBounds(f)
    ensures LitCount(f, StepCount) == f.stepIndex + 1
  {
  }
}

=== FILE: image_service.dfy ===
/** The image service (services/imageService.ts): the key probe's fallback,
    reading the first inline image out of a generation reply, classifying a
    failed call into a 403 or 429 error or a null result, and the image cache
    kept in browser storage under a key prefix, with its evict-all-and-retry
    write. The network call itself is an input: the reply or the error message
    it produced. */
module ImageService {
  import opened Types
  import opened Text

  // ---------------------------------------------------------------------------
  // Key probe

  /** `checkHasApiKey`: the environment's answer when it offers the probe, and
      true when it does not. */
  function CheckHasApiKey(probe: Option<bool>): (r: bool)
    ensures probe.None? ==> r
    ensures probe.Some? ==> r == probe.value
  {
    match probe
    case None => true
    case Some(answer) => answer
  }

  // ---------------------------------------------------------------------------
  // Generation replies

  datatype InlineData = InlineData(data: string)

  datatype Part = Part(inlineData: Option<InlineData>)

  datatype Content = Content(parts: Option<seq<Part>>)

  datatype Candidate = Candidate(content: Option<Content>)

  /** What the generation call came back with: a reply (with or without a
      candidate list), or a thrown error carrying an optional message. */
  datatype Reply =
    | Answered(candidates: Option<seq<Candidate>>)
    | Threw(message: Option<string>)

  /** The outcome `generateThematicImage` hands its caller: an image URI, a null
      result, or a thrown `ImageGenError` with its code. */
  datatype Generated =
    | Image(uri: string)
    | NoImage
    | GenError(code: int)

  const DataUriPrefix: string := "data:image/png;base64,"

  /** The first part carrying inline data, as a PNG data URI. */
  function FirstInlineImage(parts: seq<Part>): (r: Option<string>)
    ensures r.None? <==> forall i :: 0 <= i < |parts| ==> parts[i].inlineData.None?
    ensures r.Some? ==> exists i :: && 0 <= i < |parts|
                                    && parts[i].inlineData.Some?
                                    && r.value == DataUriPrefix + parts[i].inlineData.value.data
                                    && forall j :: 0 <= j < i ==> parts[j].inlineData.None?
  {
    if |parts| == 0 then None
    else if parts[0].inlineData.Some? then Some(DataUriPrefix + parts[0].inlineData.value.data)
    else
      var r := FirstInlineImage(parts[1..]);
      assert r.Some? ==> exists i :: && 0 <= i < |parts|
                                     && parts[i].inlineData.Some?
                                     && r.value == DataUriPrefix + parts[i].inlineData.value.data
                                     && forall j :: 0 <= j < i ==> parts[j].inlineData.None? by {
        if r.Some? {
          var k :| && 0 <= k < |parts[1..]|
                   && parts[1..][k].inlineData.Some?
                   && r.value == DataUriPrefix + parts[1..][k].inlineData.value.data
                   && forall j :: 0 <= j < k ==> parts[1..][j].inlineData.None?;
          assert parts[k + 1] == parts[1..][k];
          forall j | 0 <= j < k + 1
            ensures parts[j].inlineData.None?
          {
            if j > 0 {
              assert parts[j] == parts[1..][j - 1];
            }
          }
        }
      }
      assert r.None? ==> forall i :: 0 <= i < |parts| ==> parts[i].inlineData.None? by {
        if r.None? {
          forall i | 0 <= i < |parts|
            ensures parts[i].inlineData.None?
          {
            if i > 0 {
              assert parts[i] == parts[1..][i - 1];
            }
          }
        }
      }
      r
  }

  /** The error-message test in the catch block: 403 or PERMISSION_DENIED gives
      403, checked first; then 429 or RESOURCE_EXHAUSTED gives 429; anything
      else is no code, and the call returns null. */
  function ClassifyError(message: string): (r: Option<int>)
    ensures r.Some? ==> r.value in {403, 429}
  {
    if Contains(message, "403") || Contains(message, "PERMISSION_DENIED") then Some(403)
    else if Contains(message, "429") || Contains(message, "RESOURCE_EXHAUSTED") then Some(429)
    else None
  }

  /** The classifier's three outcomes, stated independently of the order of its tests. */
  lemma ClassifyErrorCases(message: string)
    ensures var denied := Contains(message, "403") || Contains(message, "PERMISSION_DENIED");
            var exhausted := Contains(message, "429") || Contains(message, "RESOURCE_EXHAUSTED");
            && (ClassifyError(message) == Some(403) <==> denied)
            && (ClassifyError(message) == Some(429) <==> !denied && exhausted)
            && (ClassifyError(message).None? <==> !denied && !exhausted)
            && (ClassifyError(message).Some? ==> ClassifyError(message).value in {403, 429})
  {
  }

  /** `candidates?.[0]?.content?.parts`: the parts of the first candidate,
      when every link of the chain is present. */
  function FirstParts(reply: Reply): (r: Option<seq<Part>>)
    ensures r.Some? <==> && reply.Answered? && reply.candidates.Some? && |reply.candidates.value| > 0
                         && reply.candidates.value[0].content.Some?
                         && reply.candidates.value[0].content.value.parts.Some?
    ensures r.Some? ==> r.value == reply.candidates.value[0].content.value.parts.value
  {
    if reply.Answered? && reply.candidates.Some? && |reply.candidates.value| > 0
       && reply.candidates.value[0].content.Some? && reply.candidates.value[0].content.value.parts.Some?
    then Some(reply.candidates.value[0].content.value.parts.value)
    else None
  }

  /** `generateThematicImage`, given what the network call produced: the first
      inline image of the first candidate, null when there is none, and for a
      thrown error the classifier's code or null. */
  function GenerateThematicImage(reply: Reply): (r: Generated)
    ensures reply.Answered? ==> !r.GenError?
    ensures reply.Answered? ==> (r.Image? <==> FirstParts(reply).Some? && FirstInlineImage(FirstParts(reply).value).Some?)
    ensures r.Image? ==> FirstParts(reply).Some? && Some(r.uri) == FirstInlineImage(FirstParts(reply).value)
    ensures r.Image? ==> IsPrefix(DataUriPrefix, r.uri) && r.uri != ""
    ensures reply.Threw? ==> !r.Image?
    ensures reply.Threw? ==> (r.GenError? <==> ClassifyError(reply.message.GetOr("")).Some?)
    ensures reply.Threw? && r.GenError? ==> Some(r.code) == ClassifyError(reply.message.GetOr(""))
    ensures reply.Threw? && ClassifyError(reply.message.GetOr("")).None? ==> r.NoImage?
    ensures r.GenError? ==> r.code in {403, 429}
  {
    match reply
    case Answered(_) =>
      if FirstParts(reply).Some? then
        match FirstInlineImage(FirstParts(reply).value)
        case Some(uri) =>
          assert (DataUriPrefix + uri[|DataUriPrefix|..])[..|DataUriPrefix|] == DataUriPrefix;
          Image(uri)
        case None => NoImage
      else NoImage
    case Threw(message) =>
      match ClassifyError(message.GetOr(""))
      case Some(code) => GenError(code)
      case None => NoImage
  }

  // ---------------------------------------------------------------------------
  // The image cache

  /** Browser storage: string keys to string values, shared with the journal,
      the theme and the premium flag. */
  type Storage = map<string, string>

  const CachePrefix: string := "img_cache_"

  function CacheKey(key: string): (k: string)
    ensures IsPrefix(CachePrefix, k)
  {
    assert (CachePrefix + key)[..|CachePrefix|] == CachePrefix;
    CachePrefix + key
  }

  /** Storage keys that belong to the image cache. */
  predicate IsCacheKey(k: string)
  {
    IsPrefix(CachePrefix, k)
  }

  /** Different cache keys never share a storage slot. */
  lemma CacheKeyInjective(a: string, b: string)
    ensures CacheKey(a) == CacheKey(b) <==> a == b
  {
    if CacheKey(a) == CacheKey(b) {
      assert a == CacheKey(a)[|CachePrefix|..];
      assert b == CacheKey(b)[|CachePrefix|..];
    }
  }

  /** `imageCache.get`: the stored value, or null. */
  function CacheGet(store: Storage, key: string): (r: Option<string>)
    ensures r.Some? <==> CacheKey(key) in store
    ensures r.Some? ==> r.value == store[CacheKey(key)]
  {
    if CacheKey(key) in store then Some(store[CacheKey(key)]) else None
  }

  /** The eviction loop: every prefixed entry removed, every other one kept. */
  function EvictImages(store: Storage): (r: Storage)
    ensures forall k :: k in r <==> k in store && !IsCacheKey(k)
    ensures forall k :: k in r ==> r[k] == store[k]
  {
    map k | k in store && !IsCacheKey(k) :: store[k]
  }

  /** What a cache write leaves behind: the storage, and whether the write
      ended by throwing. */
  datatype WriteResult = WriteResult(store: Storage, threw: bool)

  /** `imageCache.set`. Whether `setItem` fits is decided by the browser's
      quota, which the model takes as the two inputs `firstFits` (the first
      attempt) and `retryFits` (the one attempt after eviction). */
  function CacheSet(store: Storage, key: string, data: string, firstFits: bool, retryFits: bool): (r: WriteResult)
    ensures r.threw <==> !firstFits && !retryFits
    ensures r.threw ==> r.store == EvictImages(store) && CacheGet(r.store, key).None?
    ensures !r.threw ==> CacheGet(r.store, key) == Some(data)
    ensures forall k :: k in r.store ==> k in store || k == CacheKey(key)
    ensures forall k :: !IsCacheKey(k) ==> (k in r.store <==> k in store)
    ensures forall k :: !IsCacheKey(k) && k in store ==> r.store[k] == store[k]
    ensures firstFits ==> forall k :: k != CacheKey(key) && k in store ==> k in r.store && r.store[k] == store[k]
    ensures !firstFits ==> forall k :: IsCacheKey(k) && k != CacheKey(key) ==> k !in r.store
  {
    if firstFits then
      WriteResult(store[CacheKey(key) := data], false)
    else
      var evicted := EvictImages(store);
      if retryFits then WriteResult(evicted[CacheKey(key) := data], false)
      else WriteResult(evicted, true)
  }

  /** Reading a key that was never written gives null, and writing one key
      never makes another key readable. */
  lemma GetUnsetKey(store: Storage, key: string, other: string, data: string, firstFits: bool, retryFits: bool)
    requires CacheKey(key) !in store && key != other
    ensures CacheGet(store, key) == None
    ensures CacheGet(CacheSet(store, other, data, firstFits, retryFits).store, key) == None
  {
    CacheKeyInjective(key, other);
  }

  /** After a successful eviction path the cache holds exactly the new image,
      and everything outside the cache is as it was. */
  lemma EvictionLeavesOnlyNewImage(store: Storage, key: string, data: string)
    ensures var r := CacheSet(store, key, data, false, true);
            && !r.threw
            && (forall k :: IsCacheKey(k) && k in r.store ==> k == CacheKey(key))
            && (forall k :: !IsCacheKey(k) ==> (k in r.store <==> k in store))
            && r.store[CacheKey(key)] == data
  {
  }

  /** The storage keys the rest of the application uses lie outside the cache
      prefix, so no cache write touches them. */
  lemma AppKeysSurviveCacheWrites(store: Storage, key: string, data: string, firstFits: bool, retryFits: bool)
    ensures var r := CacheSet(store, key, data, firstFits, retryFits).store;
            forall k :: k in {"journal_entries", "theme_mode", "is_premium"} ==>
              (k in r <==> k in store) && (k in store ==> r[k] == store[k])
  {
    assert !IsCacheKey("journal_entries") by { assert "journal_entries"[..|CachePrefix|][0] != CachePrefix[0]; }
    assert !IsCacheKey("theme_mode") by { assert "theme_mode"[..|CachePrefix|][0] != CachePrefix[0]; }
    assert !IsCacheKey("is_premium") by { assert "is_premium"[..|CachePrefix|][1] != CachePrefix[1]; }
  }
}

=== FILE: journal.dfy ===
/** The journal history screen's query engine (screens/JournalScreen.tsx): a
    search, a trap filter and a mood band applied one after another to a copy
    of the entries, then a sort by one of four keys; and the small rules that
    edit the query: trap toggling, the sort cycle, clearing, and the "filter
    active" indicator. */
module Journal {
  import opened Types
  import opened Text
  import opened Seqs

  datatype SortOption = Latest | Oldest | MoodHigh | MoodLow

  datatype MoodFilter = All | High | Low

  /** The history view's query: search box, selected trap chips, mood band and sort. */
  datatype HistoryQuery = HistoryQuery(
    searchQuery: string,
    filterTraps: seq<ThinkingTrap>,
    moodFilter: MoodFilter,
    sortBy: SortOption)

  // ---------------------------------------------------------------------------
  // Filtering

  /** Case-folded substring match against the thought or the reframe. An
      empty query matches every entry, and a query longer than both texts
      matches none. */
  function MatchesSearch(query: string, e: MoodEntry): (r: bool)
    ensures query == "" ==> r
    ensures r ==> |query| <= |e.originalThought| || |query| <= |e.reframe|
  {
    ContainsEmpty(ToLower(e.originalThought));
    ContainsLength(ToLower(e.originalThought), ToLower(query));
    ContainsLength(ToLower(e.reframe), ToLower(query));
    || Contains(ToLower(e.originalThought), ToLower(query))
    || Contains(ToLower(e.reframe), ToLower(query))
  }

  /** The search ignores case: queries that differ only in letter case match
      the same entries, and an entry whose thought and reframe differ only in
      letter case from another's is matched by the same queries. */
  lemma SearchIgnoresCase(q1: string, q2: string, e1: MoodEntry, e2: MoodEntry)
    ensures && SameUpToCase(q1, q2)
            && SameUpToCase(e1.originalThought, e2.originalThought)
            && SameUpToCase(e1.reframe, e2.reframe)
            ==> MatchesSearch(q1, e1) == MatchesSearch(q2, e2)
  {
    SameUpToCaseIff(q1, q2);
    SameUpToCaseIff(e1.originalThought, e2.originalThought);
    SameUpToCaseIff(e1.reframe, e2.reframe);
  }

  /** `filterTraps.some(trap => e.traps.includes(trap))`. */
  predicate SharesTrap(filterTraps: seq<ThinkingTrap>, e: MoodEntry)
  {
    exists i :: 0 <= i < |filterTraps| && filterTraps[i] in e.traps
  }

  predicate InMoodBand(f: MoodFilter, e: MoodEntry)
  {
    match f
    case All => true
    case High => e.moodLevel >= 7
    case Low => e.moodLevel <= 4
  }

  /** The search stage runs only for a non-empty query. */
  function SearchStage(query: string, s: seq<MoodEntry>): seq<MoodEntry>
  {
    if query != "" then Filter(e => MatchesSearch(query, e), s) else s
  }

  /** The trap stage runs only when at least one trap chip is selected. */
  function TrapStage(filterTraps: seq<ThinkingTrap>, s: seq<MoodEntry>): seq<MoodEntry>
  {
    if |filterTraps| > 0 then Filter(e => SharesTrap(filterTraps, e), s) else s
  }

  /** HIGH and LOW filter; ALL leaves the list alone. */
  function MoodStage(f: MoodFilter, s: seq<MoodEntry>): seq<MoodEntry>
  {
    match f
    case High => Filter((e: MoodEntry) => e.moodLevel >= 7, s)
    case Low => Filter((e: MoodEntry) => e.moodLevel <= 4, s)
    case All => s
  }

  /** The three stages in the order the screen applies them. */
  function FilterStages(entries: seq<MoodEntry>, q: HistoryQuery): seq<MoodEntry>
  {
    MoodStage(q.moodFilter, TrapStage(q.filterTraps, SearchStage(q.searchQuery, entries)))
  }

  predicate PassesSearch(query: string, e: MoodEntry)
  {
    query == "" || MatchesSearch(query, e)
  }

  predicate PassesTraps(filterTraps: seq<ThinkingTrap>, e: MoodEntry)
  {
    |filterTraps| == 0 || SharesTrap(filterTraps, e)
  }

  /** An entry survives the query's filters: the three conditions in conjunction. */
  predicate Selected(q: HistoryQuery, e: MoodEntry)
  {
    PassesSearch(q.searchQuery, e) && PassesTraps(q.filterTraps, e) && InMoodBand(q.moodFilter, e)
  }

  lemma SearchStageIsFilter(query: string, s: seq<MoodEntry>, p: MoodEntry -> bool)
    requires forall e :: p(e) == PassesSearch(query, e)
    ensures SearchStage(query, s) == Filter(p, s)
  {
    if query != "" {
      FilterExtensional(e => MatchesSearch(query, e), p, s);
    } else {
      FilterKeepsAll(p, s);
    }
  }

  lemma TrapStageIsFilter(filterTraps: seq<ThinkingTrap>, s: seq<MoodEntry>, p: MoodEntry -> bool)
    requires forall e :: p(e) == PassesTraps(filterTraps, e)
    ensures TrapStage(filterTraps, s) == Filter(p, s)
  {
    if |filterTraps| > 0 {
      FilterExtensional(e => SharesTrap(filterTraps, e), p, s);
    } else {
      FilterKeepsAll(p, s);
    }
  }

  lemma MoodStageIsFilter(f: MoodFilter, s: seq<MoodEntry>, p: MoodEntry -> bool)
    requires forall e :: p(e) == InMoodBand(f, e)
    ensures MoodStage(f, s) == Filter(p, s)
  {
    match f
    case High => FilterExtensional((e: MoodEntry) => e.moodLevel >= 7, p, s);
    case Low => FilterExtensional((e: MoodEntry) => e.moodLevel <= 4, p, s);
    case All => FilterKeepsAll(p, s);
  }

  /** Applying the three stages in turn is one filter by their conjunction. */
  lemma FilterStagesCompose(entries: seq<MoodEntry>, q: HistoryQuery, selected: MoodEntry -> bool)
    requires forall e :: selected(e) == Selected(q, e)
    ensures FilterStages(entries, q) == Filter(selected, entries)
  {
    var ps := (e: MoodEntry) => PassesSearch(q.searchQuery, e);
    var pt := (e: MoodEntry) => PassesTraps(q.filterTraps, e);
    var pm := (e: MoodEntry) => InMoodBand(q.moodFilter, e);
    var pst := (e: MoodEntry) => PassesSearch(q.searchQuery, e) && PassesTraps(q.filterTraps, e);
    var s1 := SearchStage(q.searchQuery, entries);
    var s2 := TrapStage(q.filterTraps, s1);
    SearchStageIsFilter(q.searchQuery, entries, ps);
    TrapStageIsFilter(q.filterTraps, s1, pt);
    MoodStageIsFilter(q.moodFilter, s2, pm);
    FilterFilter(ps, pt, pst, entries);
    FilterFilter(pst, pm, selected, entries);
  }

  // ---------------------------------------------------------------------------
  // Sorting

  /** The comparator handed to `Array.prototype.sort`: negative puts `a` first,
      so LATEST puts the later entry first, OLDEST the earlier, MOOD_HIGH the
      higher mood and MOOD_LOW the lower; zero is a tie. */
  function Compare(sortBy: SortOption, a: MoodEntry, b: MoodEntry): (r: int)
    ensures sortBy == Latest ==> (r < 0 <==> a.timestamp > b.timestamp)
    ensures sortBy == Oldest ==> (r < 0 <==> a.timestamp < b.timestamp)
    ensures sortBy == MoodHigh ==> (r < 0 <==> a.moodLevel > b.moodLevel)
    ensures sortBy == MoodLow ==> (r < 0 <==> a.moodLevel < b.moodLevel)
    ensures sortBy in {Latest, Oldest} ==> (r == 0 <==> a.timestamp == b.timestamp)
    ensures sortBy in {MoodHigh, MoodLow} ==> (r == 0 <==> a.moodLevel == b.moodLevel)
  {
    match sortBy
    case Latest => b.timestamp - a.timestamp
    case Oldest => a.timestamp - b.timestamp
    case MoodHigh => b.moodLevel - a.moodLevel
    case MoodLow => a.moodLevel - b.moodLevel
  }

  /** An integer key whose ascending order is the comparator's order. */
  function SortKey(sortBy: SortOption, e: MoodEntry): int
  {
    match sortBy
    case Latest => -e.timestamp
    case Oldest => e.timestamp
    case MoodHigh => -e.moodLevel
    case MoodLow => e.moodLevel
  }

  /** The comparator is the difference of the keys, so it orders and ties
      exactly as the keys do. */
  lemma CompareIsKeyDifference(sortBy: SortOption, a: MoodEntry, b: MoodEntry)
    ensures Compare(sortBy, a, b) == SortKey(sortBy, a) - SortKey(sortBy, b)
    ensures Compare(sortBy, a, b) == -Compare(sortBy, b, a)
  {
  }

  /** Stable sort of `s` by the chosen comparator. */
  function SortEntries(sortBy: SortOption, s: seq<MoodEntry>): seq<MoodEntry>
  {
    Sort(e => SortKey(sortBy, e), s)
  }

  /** Ordered by the comparator: no later element should have come first. */
  predicate OrderedBy(sortBy: SortOption, r: seq<MoodEntry>)
  {
    forall i, j :: 0 <= i < j < |r| ==> Compare(sortBy, r[i], r[j]) <= 0
  }

  /** Entries that compare equal keep their relative order from `s`. */
  ghost predicate TiesKeepOrder(sortBy: SortOption, r: seq<MoodEntry>, s: seq<MoodEntry>)
  {
    SameKeyClasses(e => SortKey(sortBy, e), r, s)
  }

  lemma OrderedByIsSortedBy(sortBy: SortOption, r: seq<MoodEntry>)
    ensures OrderedBy(sortBy, r) <==> SortedBy(e => SortKey(sortBy, e), r)
  {
  }

  // ---------------------------------------------------------------------------
  // The pipeline

  /** `processedEntries`: filter a copy of `entries`, then sort it. The result
      holds each selected entry as often as `entries` does and nothing else,
      is ordered by the comparator, and keeps ties in their order in `entries`. */
  function ProcessEntries(entries: seq<MoodEntry>, q: HistoryQuery): (r: seq<MoodEntry>)
    ensures forall e :: multiset(r)[e] == if Selected(q, e) then multiset(entries)[e] else 0
    ensures |r| <= |entries|
    ensures OrderedBy(q.sortBy, r)
    ensures TiesKeepOrder(q.sortBy, r, Filter(e => Selected(q, e), entries))
  {
    var filtered := FilterStages(entries, q);
    FilterStagesCompose(entries, q, e => Selected(q, e));
    forall e
      ensures multiset(filtered)[e] == if Selected(q, e) then multiset(entries)[e] else 0
    {
      FilterCount(e => Selected(q, e), entries, e);
    }
    SortStable(e => SortKey(q.sortBy, e), filtered);
    OrderedByIsSortedBy(q.sortBy, SortEntries(q.sortBy, filtered));
    SortEntries(q.sortBy, filtered)
  }

  /** An entry appears in the view iff it is one of `entries` and passes all
      three filters. */
  lemma ProcessMembership(entries: seq<MoodEntry>, q: HistoryQuery, e: MoodEntry)
    ensures e in ProcessEntries(entries, q) <==> e in entries && Selected(q, e)
  {
    var r := ProcessEntries(entries, q);
    assert e in r <==> multiset(r)[e] > 0;
    assert e in entries <==> multiset(entries)[e] > 0;
  }

  /** The view never repeats an entry more often than `entries` holds it. */
  lemma ProcessNoNewDuplicates(entries: seq<MoodEntry>, q: HistoryQuery)
    ensures multiset(ProcessEntries(entries, q)) <= multiset(entries)
  {
  }

  /** The view is the filtered list, rearranged: a permutation of a
      subsequence of `entries`. */
  lemma ProcessPermutesFiltered(entries: seq<MoodEntry>, q: HistoryQuery)
    ensures IsSubsequence(FilterStages(entries, q), entries)
    ensures multiset(ProcessEntries(entries, q)) == multiset(FilterStages(entries, q))
  {
    FilterStagesCompose(entries, q, e => Selected(q, e));
    FilterIsSubsequence(e => Selected(q, e), entries);
    SortStable(e => SortKey(q.sortBy, e), FilterStages(entries, q));
  }

  /** The view is the only list a stable comparator sort of the filtered list
      can produce: any ordering that respects the comparator and keeps ties in
      order equals it. */
  lemma ProcessIsTheStableSort(entries: seq<MoodEntry>, q: HistoryQuery, r: seq<MoodEntry>)
    requires OrderedBy(q.sortBy, r)
    requires TiesKeepOrder(q.sortBy, r, FilterStages(entries, q))
    ensures r == ProcessEntries(entries, q)
  {
    OrderedByIsSortedBy(q.sortBy, r);
    SortIsTheStableSort(e => SortKey(q.sortBy, e), FilterStages(entries, q), r);
  }

  /** The search stage's guard changes nothing: an empty query occurs in every
      text, so `includes("")` would have kept every entry anyway. */
  lemma EmptySearchMatchesAll(e: MoodEntry)
    ensures MatchesSearch("", e)
  {
    ContainsEmpty(ToLower(e.originalThought));
  }

  /** The trap filter is a union: a single chip selects the entries carrying that
      trap, and selecting more chips never hides an entry. */
  lemma TrapFilterIsUnion(filterTraps: seq<ThinkingTrap>, t: ThinkingTrap, e: MoodEntry)
    ensures SharesTrap([t], e) <==> t in e.traps
    ensures SharesTrap(filterTraps, e) ==> SharesTrap(filterTraps + [t], e)
    ensures SharesTrap(filterTraps + [t], e) <==> SharesTrap(filterTraps, e) || t in e.traps
  {
    var g := filterTraps + [t];
    if SharesTrap(filterTraps, e) {
      var i :| 0 <= i < |filterTraps| && filterTraps[i] in e.traps;
      assert g[i] == filterTraps[i];
    }
    if t in e.traps {
      assert g[|filterTraps|] == t;
    }
    if SharesTrap(g, e) {
      var i :| 0 <= i < |g| && g[i] in e.traps;
      if i < |filterTraps| {
        assert filterTraps[i] == g[i];
      }
    }
  }

  /** The mood bands: HIGH and LOW are disjoint, 5 and 6 fall in neither, and
      ALL admits everything. */
  lemma MoodBands(e: MoodEntry)
    ensures !(InMoodBand(High, e) && InMoodBand(Low, e))
    ensures 5 <= e.moodLevel <= 6 ==> !InMoodBand(High, e) && !InMoodBand(Low, e)
    ensures InMoodBand(All, e)
    ensures InMoodBand(High, e) || InMoodBand(Low, e) || 5 <= e.moodLevel <= 6
  {
  }

  // ---------------------------------------------------------------------------
  // Editing the query

  /** Adds the trap when absent, removes every occurrence when present. Used
      for the new-entry form's chips and for the history filter's chips. */
  function ToggleTrap(traps: seq<ThinkingTrap>, t: ThinkingTrap): (r: seq<ThinkingTrap>)
    ensures t in r <==> t !in traps
    ensures forall u :: u != t ==> (u in r <==> u in traps)
    ensures NoDuplicates(traps) ==> NoDuplicates(r)
  {
    if t in traps then
      assert NoDuplicates(traps) ==> NoDuplicates(Filter(u => u != t, traps)) by {
        if NoDuplicates(traps) {
          FilterNoDuplicates(u => u != t, traps);
        }
      }
      Filter(u => u != t, traps)
    else
      assert NoDuplicates(traps) ==> NoDuplicates(traps + [t]) by {
        if NoDuplicates(traps) {
          var w := traps + [t];
          forall i, j | 0 <= i < j < |w|
            ensures w[i] != w[j]
          {
            assert w[i] == traps[i];
          }
        }
      }
      traps + [t]
  }

  /** Toggling twice restores the same set of traps; when the trap was absent
      it restores the very list. */
  lemma ToggleTrapTwice(traps: seq<ThinkingTrap>, t: ThinkingTrap)
    ensures forall u :: u in ToggleTrap(ToggleTrap(traps, t), t) <==> u in traps
    ensures t !in traps ==> ToggleTrap(ToggleTrap(traps, t), t) == traps
  {
    if t !in traps {
      FilterSnoc(u => u != t, traps, t);
      FilterKeepsAll(u => u != t, traps);
    }
  }

  /** Toggling a history filter chip edits the trap list and nothing else. */
  function ToggleHistoryTrapFilter(q: HistoryQuery, t: ThinkingTrap): (r: HistoryQuery)
    ensures t in r.filterTraps <==> t !in q.filterTraps
    ensures forall u :: u != t ==> (u in r.filterTraps <==> u in q.filterTraps)
    ensures r.searchQuery == q.searchQuery && r.moodFilter == q.moodFilter && r.sortBy == q.sortBy
  {
    q.(filterTraps := ToggleTrap(q.filterTraps, t))
  }

  /** The sort button's order of options. */
  const SortCycle: seq<SortOption> := [Latest, Oldest, MoodHigh, MoodLow]

  /** Where each option sits in the cycle. */
  function CyclePosition(sortBy: SortOption): nat
  {
    match sortBy
    case Latest => 0
    case Oldest => 1
    case MoodHigh => 2
    case MoodLow => 3
  }

  lemma IndexOfSortCycle(sortBy: SortOption)
    ensures IndexOf(SortCycle, sortBy) == CyclePosition(sortBy)
  {
    assert SortCycle[CyclePosition(sortBy)] == sortBy;
  }

  /** The option after `sortBy`, wrapping from the last to the first. */
  function CycleSort(sortBy: SortOption): (r: SortOption)
    ensures r != sortBy
    ensures CyclePosition(r) == (CyclePosition(sortBy) + 1) % 4
  {
    IndexOfSortCycle(sortBy);
    SortCycle[(IndexOf(SortCycle, sortBy) + 1) % |SortCycle|]
  }

  /** The successor of each option: LATEST, OLDEST, MOOD_HIGH, MOOD_LOW, then
      LATEST again. */
  function NextInCycle(sortBy: SortOption): SortOption
  {
    match sortBy
    case Latest => Oldest
    case Oldest => MoodHigh
    case MoodHigh => MoodLow
    case MoodLow => Latest
  }

  /** The index arithmetic on the options array agrees with the listed order. */
  lemma CycleSortOrder(sortBy: SortOption)
    ensures CycleSort(sortBy) == NextInCycle(sortBy)
  {
    var r := CycleSort(sortBy);
    match sortBy
    case Latest => assert CyclePosition(r) == 1;
    case Oldest => assert CyclePosition(r) == 2;
    case MoodHigh => assert CyclePosition(r) == 3;
    case MoodLow => assert CyclePosition(r) == 0;
  }

  /** Four presses come back to the start, passing through every option. */
  lemma CycleSortFourPresses(sortBy: SortOption)
    ensures CycleSort(CycleSort(CycleSort(CycleSort(sortBy)))) == sortBy
    ensures {sortBy, CycleSort(sortBy), CycleSort(CycleSort(sortBy)), CycleSort(CycleSort(CycleSort(sortBy)))}
         == {Latest, Oldest, MoodHigh, MoodLow}
  {
    var a := CycleSort(sortBy);
    var b := CycleSort(a);
    var c := CycleSort(b);
    CycleSortOrder(sortBy);
    CycleSortOrder(a);
    CycleSortOrder(b);
    CycleSortOrder(c);
  }

  /** An entry with empty texts, no traps and a middling mood: every active
      filter hides it. */
  const Blank: MoodEntry := MoodEntry("", 0, 5, [], "", "")

  /** A filter other than the sort is in effect: exactly when the query can
      hide an entry. */
  function IsFilterActive(q: HistoryQuery): (r: bool)
    ensures !r ==> forall e :: Selected(q, e)
    ensures r <==> !Selected(q, Blank)
  {
    |q.filterTraps| > 0 || q.moodFilter != All || q.searchQuery != ""
  }

  /** "Clear all": no traps, ALL, empty search and LATEST. Afterwards nothing
      is filtered and every entry is listed newest first. */
  function ClearFilters(): (r: HistoryQuery)
    ensures !IsFilterActive(r)
    ensures r.sortBy == Latest
    ensures forall entries :: ProcessEntries(entries, r) == SortEntries(Latest, entries)
  {
    HistoryQuery("", [], All, Latest)
  }

  /** The indicator ignores the sort option. */
  lemma FilterActiveIgnoresSort(q: HistoryQuery, sortBy: SortOption)
    ensures IsFilterActive(q.(sortBy := sortBy)) == IsFilterActive(q)
  {
  }

  /** With no active filter the view is every entry, only reordered. */
  lemma InactiveShowsEverything(entries: seq<MoodEntry>, q: HistoryQuery)
    requires !IsFilterActive(q)
    ensures ProcessEntries(entries, q) == SortEntries(q.sortBy, entries)
    ensures multiset(ProcessEntries(entries, q)) == multiset(entries)
  {
  }
}

=== FILE: library.dfy ===
/** The audio library screen (screens/LibraryScreen.tsx): the two catalogs
    (constants.ts), the search-and-tab filter over the current catalog, and
    the premium gate on a track click. */
module Library {
  import opened Types
  import opened Text
  import opened Seqs

  // ---------------------------------------------------------------------------
  // Catalogs

  const RelaxContent: seq<AudioTrack> := [
    AudioTrack("r1", "Deep Breathing", Relax, "5:00", false, "تنفس عميق", "Wind"),
    AudioTrack("r2", "Deep Release", Relax, "19:57", false, "تحرر عميق", "User"),
    AudioTrack("r3", "Dissolve Anxiety Video", Relax, "12:00", false, "فيديو تبديد القلق", "Sun"),
    AudioTrack("r4", "Acceptance", Relax, "8:45", true, "التقبل", "Heart"),
    AudioTrack("r5", "Meditate", Relax, "15:00", true, "تأمل", "Mountain"),
    AudioTrack("r6", "Nature Sounds", Relax, "30:00", false, "أصوات الطبيعة", "Leaf"),
    AudioTrack("r7", "Sleep", Relax, "45:00", true, "النوم", "Moon"),
    AudioTrack("r8", "Motivate Me", Relax, "6:30", false, "حفزني", "Zap"),
    AudioTrack("r9", "Gratitude", Relax, "10:00", false, "الامتنان", "HeartHandshake")
  ]

  const ChallengeContent: seq<AudioTrack> := [
    AudioTrack("c1", "Health Anxiety", Challenge, "7:00", false, "قلق الصحة", "Stethoscope"),
    AudioTrack("c2", "Social Anxiety", Challenge, "10:00", true, "القلق الاجتماعي", "Users"),
    AudioTrack("c3", "Intrusive Thoughts", Challenge, "8:30", true, "أفكار دخيلة", "CloudRain"),
    AudioTrack("c4", "Feeling Trapped", Challenge, "9:15", true, "الشعور بالحصار", "Home"),
    AudioTrack("c5", "Safety Crutches", Challenge, "11:00", true, "عكازات الأمان", "Accessibility"),
    AudioTrack("c6", "Bodily Sensations", Challenge, "12:45", true, "أحاسيس جسدية", "Heart"),
    AudioTrack("c7", "Overcoming Setbacks", Challenge, "14:20", true, "تجاوز الانتكاسات", "ArrowUpCircle"),
    AudioTrack("c8", "Anticipatory Anxiety", Challenge, "9:50", true, "القلق الاستباقي", "Clock"),
    AudioTrack("c9", "Driving Anxiety", Challenge, "13:10", true, "قلق القيادة", "Car")
  ]

  datatype LibraryMode = RelaxMode | ChallengeMode

  datatype Tab = AllTab | BodilyTab | SituationalTab

  /** The catalog the screen lists in each mode. */
  function Catalog(mode: LibraryMode): (r: seq<AudioTrack>)
    ensures mode == RelaxMode ==> r == RelaxContent
    ensures mode == ChallengeMode ==> r == ChallengeContent
  {
    if mode == RelaxMode then RelaxContent else ChallengeContent
  }

  /** Every track of a catalog carries that catalog's category. */
  lemma CatalogCategories(mode: LibraryMode)
    ensures forall i :: 0 <= i < |Catalog(mode)| ==>
              Catalog(mode)[i].category == (if mode == RelaxMode then Relax else Challenge)
  {
  }

  // ---------------------------------------------------------------------------
  // Filtering

  /** The Arabic label is searched as typed, the English title with both sides
      lower-cased. An empty query matches every track, and a query longer than
      both the label and the title matches none. */
  function MatchesSearch(query: string, t: AudioTrack): (r: bool)
    ensures query == "" ==> r
    ensures r ==> |query| <= |t.arabicLabel| || |query| <= |t.title|
  {
    ContainsEmpty(t.arabicLabel);
    ContainsLength(t.arabicLabel, query);
    ContainsLength(ToLower(t.title), ToLower(query));
    Contains(t.arabicLabel, query) || Contains(ToLower(t.title), ToLower(query))
  }

  predicate MatchesTab(tab: Tab, t: AudioTrack)
  {
    match tab
    case AllTab => true
    case BodilyTab => t.category == Bodily
    case SituationalTab => t.category == Situational
  }

  predicate Shown(query: string, tab: Tab, t: AudioTrack)
  {
    MatchesSearch(query, t) && MatchesTab(tab, t)
  }

  /** `filteredTracks`. */
  function FilteredTracks(mode: LibraryMode, query: string, tab: Tab): (r: seq<AudioTrack>)
    ensures forall i :: 0 <= i < |r| ==> r[i] in Catalog(mode) && Shown(query, tab, r[i])
    ensures forall i :: 0 <= i < |Catalog(mode)| && Shown(query, tab, Catalog(mode)[i]) ==> Catalog(mode)[i] in r
    ensures IsSubsequence(r, Catalog(mode))
  {
    FilterIsSubsequence((t: AudioTrack) => Shown(query, tab, t), Catalog(mode));
    Filter((t: AudioTrack) => Shown(query, tab, t), Catalog(mode))
  }

  /** An empty search on the ALL tab lists the whole catalog in catalog order. */
  lemma EmptyQueryAllTabIsCatalog(mode: LibraryMode)
    ensures FilteredTracks(mode, "", AllTab) == Catalog(mode)
  {
    forall i | 0 <= i < |Catalog(mode)|
      ensures Shown("", AllTab, Catalog(mode)[i])
    {
      ContainsEmpty(Catalog(mode)[i].arabicLabel);
    }
    FilterKeepsAll((t: AudioTrack) => Shown("", AllTab, t), Catalog(mode));
  }

  /** The ALL tab removes nothing the search keeps. */
  lemma AllTabIsSearchOnly(mode: LibraryMode, query: string)
    ensures forall i :: 0 <= i < |FilteredTracks(mode, query, AllTab)| ==>
              MatchesSearch(query, FilteredTracks(mode, query, AllTab)[i])
    ensures forall i :: 0 <= i < |Catalog(mode)| && MatchesSearch(query, Catalog(mode)[i]) ==>
              Catalog(mode)[i] in FilteredTracks(mode, query, AllTab)
  {
  }

  /** No catalog track is BODILY or SITUATIONAL, so those tabs are always empty. */
  lemma NarrowTabsAreEmpty(mode: LibraryMode, query: string, tab: Tab)
    requires tab != AllTab
    ensures FilteredTracks(mode, query, tab) == []
  {
    CatalogCategories(mode);
    var r := FilteredTracks(mode, query, tab);
    if |r| > 0 {
      assert false;
    }
  }

  /** The title search ignores case on both sides: queries that differ only
      in letter case find the same titles, and so do titles that differ only in
      letter case. */
  lemma TitleSearchIgnoresCase(q1: string, q2: string, t1: AudioTrack, t2: AudioTrack)
    ensures SameUpToCase(q1, q2) && SameUpToCase(t1.title, t2.title) ==>
              Contains(ToLower(t1.title), ToLower(q1)) == Contains(ToLower(t2.title), ToLower(q2))
  {
    SameUpToCaseIff(q1, q2);
    SameUpToCaseIff(t1.title, t2.title);
  }

  // ---------------------------------------------------------------------------
  // Premium gate

  /** A track is locked for a user without premium. The lock icon and the click
      gate both use this test. */
  predicate Locked(t: AudioTrack, isPremium: bool)
  {
    t.isPremium && !isPremium
  }

  /** What a click leaves: the track in the player, and whether the paywall was
      requested. */
  datatype ClickOutcome = ClickOutcome(playing: Option<AudioTrack>, upgradeRequested: bool)

  /** `handleTrackClick`. */
  function HandleTrackClick(playing: Option<AudioTrack>, t: AudioTrack, isPremium: bool): (r: ClickOutcome)
    ensures r.upgradeRequested <==> t.isPremium && !isPremium
    ensures r.upgradeRequested ==> r.playing == playing
    ensures !r.upgradeRequested ==> r.playing == Some(t)
  {
    if Locked(t, isPremium) then ClickOutcome(playing, true)
    else ClickOutcome(Some(t), false)
  }

  /** The player after a series of clicks. */
  function ClickAll(playing: Option<AudioTrack>, clicks: seq<AudioTrack>, isPremium: bool): Option<AudioTrack>
    decreases |clicks|
  {
    if |clicks| == 0 then playing
    else ClickAll(HandleTrackClick(playing, clicks[0], isPremium).playing, clicks[1..], isPremium)
  }

  /** Without premium, no series of clicks ever puts a premium track in the
      player. */
  lemma {:induction false} LockedTracksNeverPlay(playing: Option<AudioTrack>, clicks: seq<AudioTrack>)
    requires playing.Some? ==> !playing.value.isPremium
    ensures var r := ClickAll(playing, clicks, false);
            r.Some? ==> !r.value.isPremium
    decreases |clicks|
  {
    if |clicks| > 0 {
      LockedTracksNeverPlay(HandleTrackClick(playing, clicks[0], false).playing, clicks[1..]);
    }
  }

  /** With premium every click plays, so the player holds the last track clicked. */
  lemma {:induction false} PremiumPlaysLastClick(playing: Option<AudioTrack>, clicks: seq<AudioTrack>)
    requires |clicks| > 0
    ensures ClickAll(playing, clicks, true) == Some(clicks[|clicks| - 1])
    decreases |clicks|
  {
    if |clicks| > 1 {
      PremiumPlaysLastClick(Some(clicks[0]), clicks[1..]);
    }
  }

  /** The free tracks of each catalog are exactly those a non-premium click can play. */
  lemma FreeTracksPlay(mode: LibraryMode, i: int)
    requires 0 <= i < |Catalog(mode)|
    ensures HandleTrackClick(None, Catalog(mode)[i], false).playing.Some? <==> !Catalog(mode)[i].isPremium
  {
  }
}

=== FILE: local_image.dfy ===
/** The self-loading image component (components/LocalImage.tsx) as a state
    machine over `{src, loading, needsKey, error}` together with the browser
    storage its cache lives in. The key probe, the generation reply and the
    storage quota are inputs to each fetch. */
module LocalImage {
  import opened Types
  import opened ImageService

  datatype ImageState = ImageState(src: Option<string>, loading: bool, needsKey: bool, error: bool)

  /** The component and the storage it reads and writes. */
  datatype World = World(image: ImageState, store: Storage)

  /** Everything one `fetchImage` call depends on beyond the component's state:
      the key probe's answer, what the generation call produced, and whether
      the cache's first and retried storage writes fit. */
  datatype FetchInputs = FetchInputs(probe: Option<bool>, reply: Reply, firstFits: bool, retryFits: bool)

  /** JavaScript truthiness of `string | null`: present and non-empty. */
  predicate Truthy(src: Option<string>)
  {
    src.Some? && src.value != ""
  }

  /** The state on mount: the cached image if any, loading exactly when there is
      none. */
  function Mount(store: Storage, cacheKey: string): (s: ImageState)
    ensures s.src == CacheGet(store, cacheKey)
    ensures s.loading <==> !Truthy(CacheGet(store, cacheKey))
    ensures !s.needsKey && !s.error
  {
    var src := CacheGet(store, cacheKey);
    ImageState(src, !Truthy(src), false, false)
  }

  /** The effect's guard: a fetch starts by itself only while `src` is falsy. */
  predicate AutoFetches(s: ImageState)
  {
    !Truthy(s.src)
  }

  /** On mount the spinner shows exactly when the effect is about to fetch. */
  lemma MountSpinsIffFetching(store: Storage, cacheKey: string)
    ensures Mount(store, cacheKey).loading == AutoFetches(Mount(store, cacheKey))
  {
  }

  /** The first two lines of `fetchImage`. */
  function FetchStart(s: ImageState): (r: ImageState)
    ensures r.loading && !r.error
    ensures r.src == s.src && r.needsKey == s.needsKey
  {
    s.(loading := true, error := false)
  }

  /** `fetchImage` as written. A generated image is cached, shown and clears
      `needsKey`; a null result raises `needsKey` without a key and `error`
      with one. The `ImageGenError` that generation throws for 403 and 429 is
      not caught, so the rest of the function, `setLoading(false)` included,
      never runs; a storage write that fails twice throws the same way, after
      the eviction has already cleared the cached images. */
  function Fetch(w: World, cacheKey: string, inp: FetchInputs): (r: World)
    ensures var g := GenerateThematicImage(inp.reply);
            && (g.Image? && (inp.firstFits || inp.retryFits) ==>
                  && r.image == ImageState(Some(g.uri), false, false, false)
                  && r.store == CacheSet(w.store, cacheKey, g.uri, inp.firstFits, inp.retryFits).store
                  && CacheGet(r.store, cacheKey) == r.image.src)
            && (g.Image? && !inp.firstFits && !inp.retryFits ==>
                  r.image == FetchStart(w.image) && r.store == EvictImages(w.store))
            && (g.NoImage? ==>
                  && r.store == w.store
                  && r.image.src == w.image.src && !r.image.loading
                  && (!CheckHasApiKey(inp.probe) ==> r.image.needsKey && !r.image.error)
                  && (CheckHasApiKey(inp.probe) ==> r.image.error && r.image.needsKey == w.image.needsKey))
            && (g.GenError? ==> r == World(FetchStart(w.image), w.store))
    ensures r.image.src == w.image.src || Truthy(r.image.src)
  {
    var s := FetchStart(w.image);
    var hasKey := CheckHasApiKey(inp.probe);
    match GenerateThematicImage(inp.reply)
    case Image(uri) =>
      var written := CacheSet(w.store, cacheKey, uri, inp.firstFits, inp.retryFits);
      if written.threw then World(s, written.store)
      else World(s.(src := Some(uri), needsKey := false, loading := false), written.store)
    case NoImage =>
      if !hasKey then World(s.(needsKey := true, loading := false), w.store)
      else World(s.(error := true, loading := false), w.store)
    case GenError(_) =>
      World(s, w.store)
  }

  /** `fetchImage` with its two exceptions handled as they are meant to be:
      the `ImageGenError` for 403/429 as a request for a new key, and a cache
      write that fails even after eviction as an image that is shown but not
      cached. Both end the spinner. Everything else is as written. */
  function FetchIntended(w: World, cacheKey: string, inp: FetchInputs): (r: World)
    ensures var g := GenerateThematicImage(inp.reply);
            && (g.GenError? ==> r == World(FetchStart(w.image).(needsKey := true, loading := false), w.store))
            && (g.Image? ==>
                  && r.image == ImageState(Some(g.uri), false, false, false)
                  && r.store == CacheSet(w.store, cacheKey, g.uri, inp.firstFits, inp.retryFits).store)
            && (g.NoImage? || (g.Image? && (inp.firstFits || inp.retryFits)) ==> r == Fetch(w, cacheKey, inp))
    ensures r.image.src == w.image.src || Truthy(r.image.src)
  {
    match GenerateThematicImage(inp.reply)
    case GenError(_) => World(FetchStart(w.image).(needsKey := true, loading := false), w.store)
    case Image(uri) =>
      var written := CacheSet(w.store, cacheKey, uri, inp.firstFits, inp.retryFits);
      World(FetchStart(w.image).(src := Some(uri), needsKey := false, loading := false), written.store)
    case NoImage => Fetch(w, cacheKey, inp)
  }

  // ---------------------------------------------------------------------------
  // Rendering and user actions

  datatype View = Spinner | KeyPrompt | RetryPrompt | Picture(src: string)

  /** The render's order of checks: loading, then needsKey, then error or no
      image, then the image. */
  function Render(s: ImageState): (v: View)
    ensures v == Spinner <==> s.loading
    ensures v == KeyPrompt <==> !s.loading && s.needsKey
    ensures v == RetryPrompt <==> !s.loading && !s.needsKey && (s.error || !Truthy(s.src))
    ensures v.Picture? <==> !s.loading && !s.needsKey && !s.error && Truthy(s.src)
    ensures v.Picture? ==> s.src == Some(v.src)
  {
    if s.loading then Spinner
    else if s.needsKey then KeyPrompt
    else if s.error || !Truthy(s.src) then RetryPrompt
    else Picture(s.src.value)
  }

  /** The two buttons: "activate key" on the key prompt, "retry" on the error view. */
  datatype Action = SetKey | Retry

  predicate Offered(s: ImageState, a: Action)
  {
    match a
    case SetKey => Render(s) == KeyPrompt
    case Retry => Render(s) == RetryPrompt
  }

  /** A button press: `handleSetKey` opens the key dialog (outside the model)
      and calls `fetchImage`; retry calls `fetchImage`. A button that is not on
      screen cannot be pressed. */
  function Press(w: World, cacheKey: string, a: Action, inp: FetchInputs): (r: World)
    ensures !Offered(w.image, a) ==> r == w
    ensures Offered(w.image, a) ==> r == Fetch(w, cacheKey, inp)
  {
    if Offered(w.image, a) then Fetch(w, cacheKey, inp) else w
  }

  /** The same buttons calling the corrected fetch. */
  function PressIntended(w: World, cacheKey: string, a: Action, inp: FetchInputs): (r: World)
    ensures !Offered(w.image, a) ==> r == w
    ensures Offered(w.image, a) ==> r == FetchIntended(w, cacheKey, inp)
  {
    if Offered(w.image, a) then FetchIntended(w, cacheKey, inp) else w
  }

  /** The effect runs again only when `src` changes to a falsy value. */
  predicate EffectRefires(before: ImageState, after: ImageState)
  {
    before.src != after.src && AutoFetches(after)
  }

  /** No fetch, as written or intended, re-arms the effect: a failed fetch
      leaves `src` alone. Leaving the key prompt or the error view therefore
      takes a button press. */
  lemma NoAutomaticRetry(w: World, cacheKey: string, inp: FetchInputs)
    ensures !EffectRefires(w.image, Fetch(w, cacheKey, inp).image)
    ensures !EffectRefires(w.image, FetchIntended(w, cacheKey, inp).image)
  {
  }

  /** From the key prompt or the error view, only the matching button moves the
      component; the other button does nothing. */
  lemma PromptsWaitForTheirButton(w: World, cacheKey: string, inp: FetchInputs)
    requires Render(w.image) in {KeyPrompt, RetryPrompt}
    ensures Render(w.image) == KeyPrompt ==> Press(w, cacheKey, Retry, inp) == w
    ensures Render(w.image) == RetryPrompt ==> Press(w, cacheKey, SetKey, inp) == w
    ensures Render(w.image) == KeyPrompt ==> PressIntended(w, cacheKey, Retry, inp) == w
    ensures Render(w.image) == RetryPrompt ==> PressIntended(w, cacheKey, SetKey, inp) == w
  {
  }

  // ---------------------------------------------------------------------------
  // The uncaught generation error

  /** As written, a quota or permission failure leaves the spinner up for good:
      no button is on screen and the effect does not run again. */
  lemma QuotaErrorLeavesSpinner(w: World, cacheKey: string, inp: FetchInputs, message: string)
    requires inp.reply == Threw(Some(message))
    requires ClassifyError(message).Some?
    ensures Render(Fetch(w, cacheKey, inp).image) == Spinner
    ensures forall a :: !Offered(Fetch(w, cacheKey, inp).image, a)
    ensures !EffectRefires(w.image, Fetch(w, cacheKey, inp).image)
  {
  }

  /** With the error handled, a quota or permission failure always ends in the
      key prompt, even when a key is already selected. */
  lemma QuotaErrorAsksForKey(w: World, cacheKey: string, inp: FetchInputs, message: string)
    requires inp.reply == Threw(Some(message))
    requires ClassifyError(message).Some?
    ensures Render(FetchIntended(w, cacheKey, inp).image) == KeyPrompt
    ensures Offered(FetchIntended(w, cacheKey, inp).image, SetKey)
  {
  }

  /** With both exceptions handled, every fetch ends off the spinner. */
  lemma IntendedFetchSettles(w: World, cacheKey: string, inp: FetchInputs)
    ensures !FetchIntended(w, cacheKey, inp).image.loading
    ensures Render(FetchIntended(w, cacheKey, inp).image) != Spinner
  {
  }

  // ---------------------------------------------------------------------------
  // The uncaught storage error

  /** As written, an image too large to store even after eviction leaves the
      spinner up for good, with every cached image already removed: no button
      is on screen and the effect does not run again. */
  lemma StorageFullLeavesSpinner(w: World, cacheKey: string, inp: FetchInputs)
    requires GenerateThematicImage(inp.reply).Image?
    requires !inp.firstFits && !inp.retryFits
    ensures Render(Fetch(w, cacheKey, inp).image) == Spinner
    ensures forall a :: !Offered(Fetch(w, cacheKey, inp).image, a)
    ensures !EffectRefires(w.image, Fetch(w, cacheKey, inp).image)
    ensures forall k :: IsCacheKey(k) ==> k !in Fetch(w, cacheKey, inp).store
  {
  }

  /** With the storage error handled, a generated image is shown whether or not
      it could be cached, and it is cached exactly when a write fit. */
  lemma StorageFullStillShows(w: World, cacheKey: string, inp: FetchInputs)
    requires GenerateThematicImage(inp.reply).Image?
    ensures Render(FetchIntended(w, cacheKey, inp).image) == Picture(GenerateThematicImage(inp.reply).uri)
    ensures CacheGet(FetchIntended(w, cacheKey, inp).store, cacheKey).Some? <==> inp.firstFits || inp.retryFits
  {
    var g := GenerateThematicImage(inp.reply);
    assert g.uri != "";
  }

  // ---------------------------------------------------------------------------
  // The key probe

  /** Where the key probe is unavailable a key counts as present, so a null
      result never raises the key prompt: it shows the error view, unless the
      prompt was already up from before. */
  lemma MissingProbeNeverAsksForKey(w: World, cacheKey: string, inp: FetchInputs)
    requires inp.probe.None?
    requires GenerateThematicImage(inp.reply).NoImage?
    ensures Fetch(w, cacheKey, inp).image.error
    ensures Fetch(w, cacheKey, inp).image.needsKey == w.image.needsKey
    ensures !w.image.needsKey ==> Render(Fetch(w, cacheKey, inp).image) == RetryPrompt
  {
  }

  /** A probe that reports no key turns a null result into the key prompt. */
  lemma NoKeyAsksForKey(w: World, cacheKey: string, inp: FetchInputs)
    requires inp.probe == Some(false)
    requires GenerateThematicImage(inp.reply).NoImage?
    ensures Render(Fetch(w, cacheKey, inp).image) == KeyPrompt
  {
  }

  // ---------------------------------------------------------------------------
  // First request

  /** The first request for an uncached key: mount, then the effect's
      `fetchImage` as written. A generated image that fits is shown and cached;
      a quota failure, or an image that cannot be stored, leaves the spinner;
      a null result shows the error view with a key and the key prompt
      without one. */
  lemma FirstRequest(store: Storage, cacheKey: string, inp: FetchInputs)
    requires CacheGet(store, cacheKey).None?
    ensures AutoFetches(Mount(store, cacheKey))
    ensures var r := Fetch(World(Mount(store, cacheKey), store), cacheKey, inp);
            var g := GenerateThematicImage(inp.reply);
            && (g.Image? && (inp.firstFits || inp.retryFits) ==> Render(r.image) == Picture(g.uri) && CacheGet(r.store, cacheKey) == Some(g.uri))
            && (g.Image? && !inp.firstFits && !inp.retryFits ==> Render(r.image) == Spinner)
            && (g.GenError? ==> Render(r.image) == Spinner)
            && (g.NoImage? ==> Render(r.image) == (if CheckHasApiKey(inp.probe) then RetryPrompt else KeyPrompt))
  {
  }

  /** The same first request with the corrected fetch: a generated image is
      always shown, a quota failure leads to the key prompt, and a null result
      behaves as written. */
  lemma FirstRequestIntended(store: Storage, cacheKey: string, inp: FetchInputs)
    requires CacheGet(store, cacheKey).None?
    ensures var r := FetchIntended(World(Mount(store, cacheKey), store), cacheKey, inp);
            var g := GenerateThematicImage(inp.reply);
            && (g.Image? ==> Render(r.image) == Picture(g.uri))
            && (g.GenError? ==> Render(r.image) == KeyPrompt)
            && (g.NoImage? ==> Render(r.image) == (if CheckHasApiKey(inp.probe) then RetryPrompt else KeyPrompt))
  {
  }
}

=== FILE: seqs.dfy ===
/** Sequence operations behind the screens' list pipelines: `Array.prototype.filter`,
    the subsequence relation, and the stable sort that `Array.prototype.sort` is
    required to be (ECMA-262, 10th edition onwards), here as an insertion sort on
    an integer key. */
module Seqs {

  /** `Array.prototype.filter`: the elements satisfying `p`, in their original order. */
  function Filter<T(==)>(p: T -> bool, s: seq<T>): (r: seq<T>)
    ensures |r| <= |s|
    ensures forall i :: 0 <= i < |r| ==> r[i] in s && p(r[i])
    ensures forall i :: 0 <= i < |s| && p(s[i]) ==> s[i] in r
  {
    if |s| == 0 then []
    else if p(s[0]) then [s[0]] + Filter(p, s[1..])
    else Filter(p, s[1..])
  }

  /** Filtering keeps every occurrence of a selected value and drops every
      occurrence of a rejected one. */
  lemma {:induction false} FilterCount<T>(p: T -> bool, s: seq<T>, x: T)
    ensures multiset(Filter(p, s))[x] == if p(x) then multiset(s)[x] else 0
  {
    if |s| > 0 {
      FilterCount(p, s[1..], x);
      assert s == [s[0]] + s[1..];
    }
  }

  /** A filter that accepts every element returns its input unchanged. */
  lemma {:induction false} FilterKeepsAll<T>(p: T -> bool, s: seq<T>)
    requires forall i :: 0 <= i < |s| ==> p(s[i])
    ensures Filter(p, s) == s
  {
    if |s| > 0 {
      FilterKeepsAll(p, s[1..]);
    }
  }

  /** Filters that agree on every element give the same result. */
  lemma {:induction false} FilterExtensional<T>(p: T -> bool, q: T -> bool, s: seq<T>)
    requires forall i :: 0 <= i < |s| ==> p(s[i]) == q(s[i])
    ensures Filter(p, s) == Filter(q, s)
  {
    if |s| > 0 {
      FilterExtensional(p, q, s[1..]);
    }
  }

  /** Two successive filters are one filter by the conjunction `r` of the two. */
  lemma {:induction false} FilterFilter<T>(p: T -> bool, q: T -> bool, r: T -> bool, s: seq<T>)
    requires forall i :: 0 <= i < |s| ==> r(s[i]) == (p(s[i]) && q(s[i]))
    ensures Filter(q, Filter(p, s)) == Filter(r, s)
  {
    if |s| > 0 {
      FilterFilter(p, q, r, s[1..]);
    }
  }

  /** Filtering a sequence with one more element at the end. */
  lemma {:induction false} FilterSnoc<T>(p: T -> bool, s: seq<T>, x: T)
    ensures Filter(p, s + [x]) == Filter(p, s) + (if p(x) then [x] else [])
  {
    if |s| > 0 {
      assert (s + [x])[1..] == s[1..] + [x];
      FilterSnoc(p, s[1..], x);
    } else {
      assert s + [x] == [x];
    }
  }

  /** A filter of a duplicate-free sequence is duplicate-free. */
  lemma {:induction false} FilterNoDuplicates<T>(p: T -> bool, s: seq<T>)
    requires NoDuplicates(s)
    ensures NoDuplicates(Filter(p, s))
  {
    if |s| > 0 {
      assert NoDuplicates(s[1..]) by {
        forall i, j | 0 <= i < j < |s[1..]|
          ensures s[1..][i] != s[1..][j]
        {
          assert s[1..][i] == s[i + 1] && s[1..][j] == s[j + 1];
        }
      }
      FilterNoDuplicates(p, s[1..]);
      if p(s[0]) {
        assert s[0] !in s[1..];
        NoDuplicatesCons(s[0], Filter(p, s[1..]));
      }
    }
  }

  /** Putting a new value in front of a duplicate-free sequence keeps it duplicate-free. */
  lemma NoDuplicatesCons<T>(x: T, u: seq<T>)
    requires NoDuplicates(u) && x !in u
    ensures NoDuplicates([x] + u)
  {
    var w := [x] + u;
    forall i, j | 0 <= i < j < |w|
      ensures w[i] != w[j]
    {
      assert w[j] == u[j - 1];
      if i > 0 {
        assert w[i] == u[i - 1];
      }
    }
  }

  /** `Array.prototype.indexOf`: the first position of `x`, or -1 when it is absent. */
  function IndexOf<T(==)>(s: seq<T>, x: T): (i: int)
    ensures -1 <= i < |s|
    ensures i == -1 <==> x !in s
    ensures 0 <= i ==> s[i] == x && x !in s[..i]
  {
    if |s| == 0 then -1
    else if s[0] == x then 0
    else
      var j := IndexOf(s[1..], x);
      assert j >= 0 ==> s[..j + 1] == [s[0]] + s[1..][..j];
      if j == -1 then -1 else j + 1
  }

  /** `a` is obtained from `b` by deleting elements, keeping the order of the rest. */
  predicate IsSubsequence<T(==)>(a: seq<T>, b: seq<T>)
    decreases |b|
  {
    if |a| == 0 then true
    else if |b| == 0 then false
    else if a[0] == b[0] then IsSubsequence(a[1..], b[1..])
    else IsSubsequence(a, b[1..])
  }

  /** Every element of a subsequence is an element of the sequence. */
  lemma {:induction false} SubsequenceMembers<T>(a: seq<T>, b: seq<T>)
    requires IsSubsequence(a, b)
    ensures forall x :: x in a ==> x in b
    decreases |b|
  {
    if |a| > 0 && |b| > 0 {
      if a[0] == b[0] {
        SubsequenceMembers(a[1..], b[1..]);
        assert a == [a[0]] + a[1..];
      } else {
        SubsequenceMembers(a, b[1..]);
      }
    }
  }

  /** The result of a filter is a subsequence of its input. */
  lemma {:induction false} FilterIsSubsequence<T>(p: T -> bool, s: seq<T>)
    ensures IsSubsequence(Filter(p, s), s)
  {
    if |s| > 0 {
      FilterIsSubsequence(p, s[1..]);
      if p(s[0]) {
        assert ([s[0]] + Filter(p, s[1..]))[1..] == Filter(p, s[1..]);
      } else {
        SkipHead(Filter(p, s[1..]), s);
      }
    }
  }

  /** Dropping the head of `b` keeps a subsequence of its tail a subsequence of `b`. */
  lemma {:induction false} SkipHead<T>(a: seq<T>, b: seq<T>)
    requires |b| > 0
    requires IsSubsequence(a, b[1..])
    ensures IsSubsequence(a, b)
    decreases |b|, |a|
  {
    if |a| > 0 && a[0] == b[0] {
      // Matching the head here consumes b[0]; the rest of a must fit in b[1..].
      SubsequenceTail(a, b[1..]);
    }
  }

  /** A subsequence with its head removed is still a subsequence. */
  lemma {:induction false} SubsequenceTail<T>(a: seq<T>, b: seq<T>)
    requires |a| > 0
    requires IsSubsequence(a, b)
    ensures IsSubsequence(a[1..], b)
    decreases |b|, |a|
  {
    if |b| > 0 {
      if a[0] == b[0] {
        if |a[1..]| > 0 {
          SkipHead(a[1..], b);
        }
      } else {
        SubsequenceTail(a, b[1..]);
        if |a[1..]| > 0 {
          SkipHead(a[1..], b);
        }
      }
    }
  }

  /** No value occurs twice. */
  predicate NoDuplicates<T(==)>(s: seq<T>)
  {
    forall i, j :: 0 <= i < j < |s| ==> s[i] != s[j]
  }

  /** Non-decreasing by `key`. */
  predicate SortedBy<T(==)>(key: T -> int, s: seq<T>)
  {
    forall i, j :: 0 <= i < j < |s| ==> key(s[i]) <= key(s[j])
  }

  /** Inserts `x` before the first element whose key is not smaller than its own,
      so `x` lands ahead of the elements it ties with. */
  function Insert<T(==)>(key: T -> int, x: T, s: seq<T>): (r: seq<T>)
    ensures |r| == |s| + 1
    ensures multiset(r) == multiset(s) + multiset{x}
  {
    if |s| == 0 || key(x) <= key(s[0]) then
      [x] + s
    else
      assert s == [s[0]] + s[1..];
      [s[0]] + Insert(key, x, s[1..])
  }

  /** Every key in `s` is at least `b`. */
  predicate KeysAtLeast<T>(key: T -> int, b: int, s: seq<T>)
  {
    forall i :: 0 <= i < |s| ==> b <= key(s[i])
  }

  /** Inserting an element no smaller than a bound keeps the bound. */
  lemma {:induction false} InsertKeysAtLeast<T>(key: T -> int, b: int, x: T, s: seq<T>)
    requires KeysAtLeast(key, b, s) && b <= key(x)
    ensures KeysAtLeast(key, b, Insert(key, x, s))
  {
    if |s| > 0 && key(s[0]) < key(x) {
      InsertKeysAtLeast(key, b, x, s[1..]);
    }
  }

  /** Inserting into a sorted sequence gives a sorted sequence. */
  lemma {:induction false} InsertSorted<T>(key: T -> int, x: T, s: seq<T>)
    requires SortedBy(key, s)
    ensures SortedBy(key, Insert(key, x, s))
  {
    if |s| > 0 && key(s[0]) < key(x) {
      var t := Insert(key, x, s[1..]);
      InsertSorted(key, x, s[1..]);
      InsertKeysAtLeast(key, key(s[0]), x, s[1..]);
      SortedCons(key, s[0], t);
    }
  }

  /** A sorted sequence headed by an element no larger than any of its keys stays sorted. */
  lemma SortedCons<T>(key: T -> int, a: T, t: seq<T>)
    requires SortedBy(key, t) && KeysAtLeast(key, key(a), t)
    ensures SortedBy(key, [a] + t)
  {
    var u := [a] + t;
    forall i, j | 0 <= i < j < |u|
      ensures key(u[i]) <= key(u[j])
    {
      assert u[j] == t[j - 1];
      if i > 0 {
        assert u[i] == t[i - 1];
      }
    }
  }

  /** Stable insertion sort by `key`. */
  function Sort<T(==)>(key: T -> int, s: seq<T>): (r: seq<T>)
    ensures |r| == |s|
    ensures multiset(r) == multiset(s)
    ensures SortedBy(key, r)
  {
    if |s| == 0 then []
    else
      assert s == [s[0]] + s[1..];
      InsertSorted(key, s[0], Sort(key, s[1..]));
      Insert(key, s[0], Sort(key, s[1..]))
  }

  /** The elements whose key is `k`, in order: the tie class of `k`. */
  function KeyClass<T(==)>(key: T -> int, k: int, s: seq<T>): seq<T>
  {
    Filter(x => key(x) == k, s)
  }

  /** Inserting `x` puts it at the front of its own tie class and leaves every
      other tie class alone. */
  lemma {:induction false} InsertKeyClass<T>(key: T -> int, x: T, s: seq<T>, k: int)
    ensures KeyClass(key, k, Insert(key, x, s))
         == if key(x) == k then [x] + KeyClass(key, k, s) else KeyClass(key, k, s)
  {
    if |s| == 0 || key(x) <= key(s[0]) {
      assert ([x] + s)[1..] == s;
    } else {
      InsertKeyClass(key, x, s[1..], k);
      assert ([s[0]] + Insert(key, x, s[1..]))[1..] == Insert(key, x, s[1..]);
    }
  }

  /** The sort is stable: each tie class keeps its input order. */
  lemma {:induction false} SortStableAt<T>(key: T -> int, s: seq<T>, k: int)
    ensures KeyClass(key, k, Sort(key, s)) == KeyClass(key, k, s)
  {
    if |s| > 0 {
      SortStableAt(key, s[1..], k);
      InsertKeyClass(key, s[0], Sort(key, s[1..]), k);
    }
  }

  /** Peeling the head off `s` peels it off its own tie class. */
  lemma KeyClassCons<T>(key: T -> int, k: int, s: seq<T>)
    requires |s| > 0
    ensures KeyClass(key, k, s)
         == if key(s[0]) == k then [s[0]] + KeyClass(key, k, s[1..]) else KeyClass(key, k, s[1..])
  {
  }

  /** `a` and `b` have the same tie class for every key. */
  ghost predicate SameKeyClasses<T>(key: T -> int, a: seq<T>, b: seq<T>)
  {
    forall k :: KeyClass(key, k, a) == KeyClass(key, k, b)
  }

  /** A sequence whose tie classes are all empty is empty. */
  lemma NoClassesEmpty<T>(key: T -> int, a: seq<T>, b: seq<T>)
    requires |a| == 0 && SameKeyClasses(key, a, b)
    ensures |b| == 0
  {
    if |b| > 0 {
      KeyClassCons(key, key(b[0]), b);
      assert false;
    }
  }

  /** The head of a sorted sequence has the least key. */
  lemma HeadIsLeast<T>(key: T -> int, b: seq<T>, x: T)
    requires SortedBy(key, b) && |b| > 0 && x in b
    ensures key(b[0]) <= key(x)
  {
    var i :| 0 <= i < |b| && b[i] == x;
  }

  /** Two sorted sequences with the same tie classes start with the same element. */
  lemma SameHead<T>(key: T -> int, a: seq<T>, b: seq<T>)
    requires SortedBy(key, a) && SortedBy(key, b) && |a| > 0 && |b| > 0
    requires SameKeyClasses(key, a, b)
    ensures a[0] == b[0]
  {
    var ka, kb := key(a[0]), key(b[0]);
    KeyClassCons(key, ka, a);
    KeyClassCons(key, kb, b);
    assert KeyClass(key, ka, a) == KeyClass(key, ka, b);
    assert KeyClass(key, kb, a) == KeyClass(key, kb, b);
    assert a[0] in KeyClass(key, ka, b);
    HeadIsLeast(key, b, a[0]);
    assert b[0] in KeyClass(key, kb, a);
    HeadIsLeast(key, a, b[0]);
    KeyClassCons(key, ka, b);
  }

  /** Removing a common head keeps the tie classes equal. */
  lemma SameTailClasses<T>(key: T -> int, a: seq<T>, b: seq<T>)
    requires |a| > 0 && |b| > 0 && a[0] == b[0]
    requires SameKeyClasses(key, a, b)
    ensures SameKeyClasses(key, a[1..], b[1..])
  {
    forall k
      ensures KeyClass(key, k, a[1..]) == KeyClass(key, k, b[1..])
    {
      KeyClassCons(key, k, a);
      KeyClassCons(key, k, b);
      assert KeyClass(key, k, a) == KeyClass(key, k, b);
      if key(a[0]) == k {
        assert KeyClass(key, k, a)[1..] == KeyClass(key, k, a[1..]);
        assert KeyClass(key, k, b)[1..] == KeyClass(key, k, b[1..]);
      }
    }
  }

  /** A sorted sequence is determined by its tie classes: two sorted sequences
      whose tie classes agree are equal. So `Sort` is the only result a stable
      sort may return. */
  lemma {:induction false} SortedStableUnique<T>(key: T -> int, a: seq<T>, b: seq<T>)
    requires SortedBy(key, a) && SortedBy(key, b)
    requires SameKeyClasses(key, a, b)
    ensures a == b
    decreases |a|
  {
    if |a| == 0 {
      NoClassesEmpty(key, a, b);
    } else if |b| == 0 {
      NoClassesEmpty(key, b, a);
    } else {
      SameHead(key, a, b);
      SameTailClasses(key, a, b);
      SortedTail(key, a);
      SortedTail(key, b);
      SortedStableUnique(key, a[1..], b[1..]);
      assert a == [a[0]] + a[1..];
      assert b == [b[0]] + b[1..];
    }
  }

  /** The sort is stable for every key at once. */
  lemma SortStable<T>(key: T -> int, s: seq<T>)
    ensures SameKeyClasses(key, Sort(key, s), s)
  {
    forall k
      ensures KeyClass(key, k, Sort(key, s)) == KeyClass(key, k, s)
    {
      SortStableAt(key, s, k);
    }
  }

  /** Any sorted rearrangement of `s` that keeps every tie class in input order
      is exactly `Sort(key, s)`. */
  lemma SortIsTheStableSort<T>(key: T -> int, s: seq<T>, r: seq<T>)
    requires SortedBy(key, r) && SameKeyClasses(key, r, s)
    ensures r == Sort(key, s)
  {
    SortStable(key, s);
    SortedStableUnique(key, r, Sort(key, s));
  }

  lemma SortedTail<T>(key: T -> int, s: seq<T>)
    requires |s| > 0 && SortedBy(key, s)
    ensures SortedBy(key, s[1..])
  {
    forall i, j | 0 <= i < j < |s[1..]|
      ensures key(s[1..][i]) <= key(s[1..][j])
    {
      assert s[1..][i] == s[i + 1] && s[1..][j] == s[j + 1];
    }
  }
}

=== FILE: text.dfy ===
/** Text primitives the application relies on from the JavaScript string API:
    lower-casing, `includes`, prefix tests, decimal rendering of integers and
    `padStart`. Lower-casing folds ASCII letters only. */
module Text {

  /** Folds one ASCII upper-case letter to lower case; every other character is kept. */
  function LowerChar(c: char): char
  {
    if 'A' <= c <= 'Z' then (c as int + 32) as char else c
  }

  predicate IsUpper(c: char)
  {
    'A' <= c <= 'Z'
  }

  /** `String.prototype.toLowerCase`, restricted to ASCII folding. */
  function ToLower(s: string): (r: string)
    ensures |r| == |s|
    ensures forall i :: 0 <= i < |r| ==> !IsUpper(r[i])
    ensures forall i :: 0 <= i < |r| && !IsUpper(s[i]) ==> r[i] == s[i]
    ensures forall i :: 0 <= i < |s| && IsUpper(s[i]) ==> r[i] as int == s[i] as int + 32
  {
    seq(|s|, i requires 0 <= i < |s| => LowerChar(s[i]))
  }

  /** Two strings that differ at most in the case of ASCII letters: at every
      index the characters are equal, or one is an upper-case letter and the
      other its lower-case form. */
  predicate SameUpToCase(a: string, b: string)
  {
    && |a| == |b|
    && forall i :: 0 <= i < |a| ==>
         || a[i] == b[i]
         || (IsUpper(a[i]) && b[i] as int == a[i] as int + 32)
         || (IsUpper(b[i]) && a[i] as int == b[i] as int + 32)
  }

  /** Lower-casing identifies exactly the strings that differ only in letter
      case. */
  lemma SameUpToCaseIff(a: string, b: string)
    ensures SameUpToCase(a, b) <==> ToLower(a) == ToLower(b)
  {
    if ToLower(a) == ToLower(b) {
      forall i | 0 <= i < |a|
        ensures || a[i] == b[i]
                || (IsUpper(a[i]) && b[i] as int == a[i] as int + 32)
                || (IsUpper(b[i]) && a[i] as int == b[i] as int + 32)
      {
        assert ToLower(a)[i] == ToLower(b)[i];
      }
    }
    if SameUpToCase(a, b) {
      assert |ToLower(a)| == |ToLower(b)|;
      forall i | 0 <= i < |a|
        ensures ToLower(a)[i] == ToLower(b)[i]
      {
      }
    }
  }

  predicate IsPrefix(p: string, s: string)
  {
    |p| <= |s| && s[..|p|] == p
  }

  /** `String.prototype.includes`: `sub` occurs somewhere in `s`. */
  predicate Contains(s: string, sub: string)
    decreases |s|
  {
    IsPrefix(sub, s) || (|s| > 0 && Contains(s[1..], sub))
  }

  /** `sub` occurs in `s` starting at position `i`. */
  predicate OccursAt(s: string, sub: string, i: int)
  {
    0 <= i <= |s| - |sub| && s[i..i + |sub|] == sub
  }

  /** An occurrence in the tail is an occurrence one position further on. */
  lemma OccursShift(s: string, sub: string, i: int)
    requires |s| > 0 && i >= 0
    ensures OccursAt(s[1..], sub, i) <==> OccursAt(s, sub, i + 1)
  {
    if 0 <= i <= |s| - 1 - |sub| {
      assert s[1..][i..i + |sub|] == s[i + 1..i + 1 + |sub|];
    }
  }

  /** `Contains` agrees with the positional definition of an occurrence. */
  lemma {:induction false} ContainsIff(s: string, sub: string)
    ensures Contains(s, sub) <==> exists i :: OccursAt(s, sub, i)
    decreases |s|
  {
    if |s| > 0 {
      ContainsIff(s[1..], sub);
    }
    if Contains(s, sub) {
      if IsPrefix(sub, s) {
        assert OccursAt(s, sub, 0);
      } else {
        var i :| OccursAt(s[1..], sub, i);
        OccursShift(s, sub, i);
      }
    }
    if exists i :: OccursAt(s, sub, i) {
      var i :| OccursAt(s, sub, i);
      if i == 0 {
        assert IsPrefix(sub, s);
      } else {
        OccursShift(s, sub, i - 1);
      }
    }
  }

  /** The empty string occurs in every string, as `"abc".includes("")` is true. */
  lemma ContainsEmpty(s: string)
    ensures Contains(s, "")
  {
    assert IsPrefix("", s);
  }

  /** Only a string no longer than `s` can occur in it. */
  lemma ContainsLength(s: string, sub: string)
    ensures Contains(s, sub) ==> |sub| <= |s|
  {
    ContainsIff(s, sub);
  }

  predicate IsDigit(c: char)
  {
    '0' <= c <= '9'
  }

  function DigitChar(d: nat): (c: char)
    requires d < 10
    ensures IsDigit(c)
  {
    ('0' as int + d) as char
  }

  function DigitValue(c: char): nat
    requires IsDigit(c)
  {
    c as int - '0' as int
  }

  /** Decimal rendering of a non-negative integer, as `Number.prototype.toString` does. */
  function NatToString(n: nat): (r: string)
    ensures 1 <= |r|
    ensures forall i :: 0 <= i < |r| ==> IsDigit(r[i])
    ensures |r| == 1 <==> n < 10
    ensures |r| > 1 ==> r[0] != '0'
    decreases n
  {
    if n < 10 then [DigitChar(n)] else NatToString(n / 10) + [DigitChar(n % 10)]
  }

  /** Decimal rendering of any integer: a minus sign before the magnitude. */
  function IntToString(i: int): string
  {
    if i < 0 then "-" + NatToString(-i) else NatToString(i)
  }

  predicate AllDigits(s: string)
  {
    forall i :: 0 <= i < |s| ==> IsDigit(s[i])
  }

  /** Reads a string of decimal digits back as a number. */
  function ParseNat(s: string): nat
    requires AllDigits(s)
  {
    if |s| == 0 then 0 else ParseNat(s[..|s| - 1]) * 10 + DigitValue(s[|s| - 1])
  }

  /** Rendering then reading a non-negative integer gives it back. */
  lemma {:induction false} ParseNatToString(n: nat)
    ensures ParseNat(NatToString(n)) == n
    decreases n
  {
    var r := NatToString(n);
    if n >= 10 {
      ParseNatToString(n / 10);
      assert r[..|r| - 1] == NatToString(n / 10);
    }
  }

  /** A leading zero does not change the number a digit string denotes. */
  lemma {:induction false} ParseNatLeadingZero(s: string)
    requires AllDigits(s)
    ensures ParseNat("0" + s) == ParseNat(s)
    decreases |s|
  {
    if |s| > 0 {
      var t := "0" + s;
      assert t[..|t| - 1] == "0" + s[..|s| - 1];
      ParseNatLeadingZero(s[..|s| - 1]);
    }
  }

  function Repeat(c: char, n: nat): (r: string)
    ensures |r| == n
    ensures forall i :: 0 <= i < n ==> r[i] == c
  {
    if n == 0 then [] else [c] + Repeat(c, n - 1)
  }

  /** `String.prototype.padStart(width, fill)` with a one-character fill. */
  function PadStart(s: string, width: nat, fill: char): (r: string)
    ensures |s| >= width ==> r == s
    ensures |s| < width ==> |r| == width && r[width - |s|..] == s
    ensures forall i :: 0 <= i < |r| - |s| ==> r[i] == fill
  {
    if |s| >= width then s else Repeat(fill, width - |s|) + s
  }
}

=== FILE: types.dfy ===
/** The application's records and enumerations (types.ts), and the optional
    value used wherever the source has `T | null` or an absent property. */
module Types {

  datatype Option<+T> = None | Some(value: T) {
    function GetOr(default: T): T
    {
      match this
      case Some(v) => v
      case None => default
    }
  }

  /** The six cognitive-distortion tags. In the source each is an enum member
      whose value is its Arabic label; the labels are distinct, so comparing
      tags compares labels. */
  datatype ThinkingTrap =
    | FortuneTelling
    | Catastrophizing
    | Personalization
    | BlackAndWhite
    | MindReading
    | EmotionalReasoning

  /** One journal record. `timestamp` is milliseconds since the epoch and
      `moodLevel` is the 1 (calm) to 10 (acute) slider value; neither range is
      enforced by the type, as in the source. */
  datatype MoodEntry = MoodEntry(
    id: string,
    timestamp: int,
    moodLevel: int,
    traps: seq<ThinkingTrap>,
    originalThought: string,
    reframe: string)

  datatype Category = Relax | Challenge | Sleep | Dare | Situational | Bodily

  /** A catalog track. `duration` is display text such as "19:57". */
  datatype AudioTrack = AudioTrack(
    id: string,
    title: string,
    category: Category,
    duration: string,
    isPremium: bool,
    arabicLabel: string,
    icon: string)

  /** The theme setting. The source types it as 'light' | 'dark' | 'system' but
      reads it back from storage with a bare cast, so any other stored text
      survives as `Unknown`. */
  datatype ThemeMode = Light | Dark | System | Unknown(raw: string)
}
